=== FILE: README.md ===
# Storefront model

A Dafny model of the core of a supplement storefront written in TypeScript and React. It covers:

- **Catalog.** The product catalog and its `byVariantId` lookup.
- **Cart.** The shopping cart kept in local storage: loading, totals, and the `add`, `remove`, `setQty` and `clear` operations.
- **Auth.** The local user directory behind `login`, `register`, `logout` and `updateProfile`.
- **Orders.** The order store.
- **Assistant.** The shopping assistant's reply parser (`parseActions`) and chat submit flow.
- **Pages and components.**
  - The checkout page.
  - The cart drawer.
  - The route guard.
  - The sign-in dialog.
  - The search dialog.
  - The administrator's panel.
  - The product detail page.
  - The product card.

Each module follows one source file, except `Text`, `Json` and `Wrappers`, which are shared helpers: the JavaScript string built-ins, parsed JSON values, and `Option`.

- **Pure functions over immutable values.** Every operation is a pure function over immutable values. A React state update becomes a function from the old state to the new one, and local storage becomes the value passed in or returned.
- **Parameters.** Parsing the stored JSON, `String.prototype.toLowerCase`, the clock and the network reply enter as parameters.
- **The catalog.** The data is `Catalog.Products()`. The client modules take the catalog as a parameter `cat`, so their properties hold for any catalog. The catalog lemmas then instantiate them on the shipped one, whose variant ids are shown to be distinct.
- **The reply pattern.** The assistant's pattern `` /```json\s*(\{[\s\S]*?\})\s*```/g `` is modelled as a leftmost, lazy scan, `Assistant.NextMatch` and `Assistant.Blocks`. It is proved equal to an independent statement of what a match is, `Assistant.Matches`.

Where the source contradicts itself, the model keeps what the code does:

- Orders charge 99 for shipping below 999, while the checkout page shows 150.
- The cart loader keeps duplicate lines.
- Seeding the administrator compares emails exactly, while login compares them in lower case.
- Two orders created in the same millisecond get the same id, and the second replaces the first.
- The product page caps the quantity at 10, while the card and the cart cap it at 99.

Lemmas state each of these.

## Model

| member | source | states |
|---|---|---|
| Text.Trim | src/components/AIAssistant.tsx:97 | `trim()` returns a slice of its input with no white space at either end, and everything cut before and after that slice is white space |
| Text.TrimEmptyIffBlank | src/components/AIAssistant.tsx:143 | a string trims to empty exactly when every character is white space |
| Text.TrimIdempotent | src/components/SearchModal.tsx:15 | trimming twice is trimming once, and a string with non-space ends trims to itself |
| Text.Contains | src/components/SearchModal.tsx:17-19 | `includes`: some position of the text holds the searched string (defined through `OccursAt`; the empty string occurs everywhere, which `AdminDashboard.EmptySearchListsAll` uses) |
| Json.Field | src/components/AIAssistant.tsx:74 | a property read `parsed.key`: present exactly when the value is an object holding that key |
| Json.Truthy | src/components/AIAssistant.tsx:74 | JavaScript truthiness: null, false, zero and the empty string are falsy, everything else truthy |
| Catalog.AllCategories | src/app/catalog.ts:1-7 | there are six categories with pairwise different names |
| Catalog.Entries | src/app/catalog.ts:214-217 | the `flatMap`: every entry pairs a listed product with one of its own variants; `EntriesMembership` gives the converse |
| Catalog.BuildIndex | src/app/catalog.ts:213-219 | `Object.fromEntries` over the entries has exactly the variant ids as keys, and each key maps to an entry with that id |
| Catalog.EntriesMembership | src/app/catalog.ts:214-217 | the `flatMap` yields a (product, variant) pair exactly when the product is listed and owns the variant |
| Catalog.BuildIndexSound | src/app/catalog.ts:213-219 | with distinct variant ids, every entry is what the index returns for its id |
| Catalog.ByVariantId | src/app/catalog.ts:213-219 | `catalogLookup.byVariantId` is the index built from the catalog's entries; `LookupIsIndex` shows the search lookup agrees with it |
| Catalog.LookupIn | src/components/AIAssistant.tsx:77-89 | the scan of the products in order that stops at the first product owning a variant with the id, as `parseActions` does and as the clients use for `byVariantId`; `LookupInSound`, `LookupInComplete` and `LookupInOwner` fix its meaning |
| Catalog.Lookup | src/app/catalog.ts:213-219 | `byVariantId[id]` on the shipped catalog, a missing key being none; `LookupIsIndex` and `LookupIff` fix its meaning |
| Catalog.LookupInSound | src/app/catalog.ts:213-219 | whatever the scan finds is a variant of a listed product carrying the requested id |
| Catalog.LookupInComplete | src/app/catalog.ts:213-219 | the scan finds something whenever some listed product owns a variant with the id |
| Catalog.LookupInIffIds | src/app/catalog.ts:213-219 | an id resolves exactly when it is among the variant ids of the listed products |
| Catalog.LookupOwner | src/app/catalog.ts:213-219 | on the shipped catalog, each variant's id looks up to exactly that variant and its owning product |
| Catalog.LookupIsIndex | src/app/catalog.ts:213-219 | on the shipped catalog, the lookup returns `byVariantId[id]` when the key is present and none otherwise |
| Catalog.ProductIds | src/app/catalog.ts:36-207 | the variant ids of each of the five products, in order |
| Catalog.CatalogIdsDistinct | src/app/catalog.ts:36-207 | no two variants of the shipped catalog share an id |
| Catalog.LookupInOwner | src/app/catalog.ts:213-219 | with distinct ids, looking up a variant's id returns that variant and the product that owns it |
| Catalog.LookupInIsIndex | src/app/catalog.ts:213-219 | with distinct ids, the search lookup agrees with the `byVariantId` map built from the entries |
| Catalog.LookupIff | src/app/catalog.ts:209-219 | an id resolves exactly when some catalog product owns a variant with that id, and the hit is such a pair |
| Catalog.LookupIffListed | src/app/catalog.ts:36-219 | an id resolves exactly when it is one of the thirteen listed variant ids |
| Catalog.CatalogWellFormed | src/app/catalog.ts:36-207 | every shipped product has at least one variant, every price is positive, and every compare-at price is above its price |
| Cart.ClampInt | src/app/cart.tsx:12-14 | `clampInt` lands in `[min, max]` and is the floor of the value when that floor is in range |
| Cart.ClampIntegerInRange | src/app/cart.tsx:12-14 | clamping an integer already in `[1, 99]` leaves it unchanged |
| Cart.DecodeLine | src/app/cart.tsx:23-32 | a stored entry is kept exactly when it is an object with a string `variantId` that resolves and a numeric `qty`, which is clamped |
| Cart.DecodeLines | src/app/cart.tsx:22-33 | the loaded lines are never more than the stored entries, and every one has a quantity in `[1, 99]` and a variant that resolves |
| Cart.DecodeLinesAppend | src/app/cart.tsx:22-33 | decoding maps over the entries and drops the rejected ones, so it distributes over concatenation |
| Cart.DecodeLinesMembership | src/app/cart.tsx:22-33 | a line is loaded exactly when some stored entry decodes to it |
| Cart.ReadStoredLines | src/app/cart.tsx:16-37 | a missing or empty value, a parse failure or a non-array gives no lines; otherwise the decoded entries, all with quantities in `[1, 99]` |
| Cart.LoadClampsAndDrops | src/app/cart.tsx:28-31 | a stored quantity of 150 loads as 99, and an unknown variant is dropped |
| Cart.LoaderKeepsDuplicates | src/app/cart.tsx:22-33 | two stored entries for one variant both load; the loader does not merge them |
| Cart.TotalItemsAppend | src/app/cart.tsx:54-57 | the item count of two line lists is the sum of their counts |
| Cart.TotalItems | src/app/cart.tsx:54-57 | the reduce summing `qty` over the lines; `TotalItemsAppend`, `ComputeTotalItems` and `TotalItemsBounds` state its properties |
| Cart.SubtotalAppend | src/app/cart.tsx:59-65 | the subtotal of two line lists is the sum of their subtotals |
| Cart.Subtotal | src/app/cart.tsx:59-65 | the reduce summing price times quantity over the lines, unresolved lines adding nothing; `SubtotalAppend`, `ComputeSubtotal` and `SubtotalIgnoresUnresolved` state its properties |
| Cart.ComputeTotalItems | src/app/cart.tsx:54-57 | the loop computes the item count; with quantities in range it lies between one and ninety-nine per line |
| Cart.ComputeSubtotal | src/app/cart.tsx:59-65 | the loop computes the subtotal, skipping lines that do not resolve |
| Cart.TotalItemsBounds | src/app/cart.tsx:54-57 | with quantities in `[1, 99]` the item count lies between the number of lines and ninety-nine times it |
| Cart.SubtotalIgnoresUnresolved | src/app/cart.tsx:60-63 | dropping the lines that do not resolve does not change the subtotal |
| Cart.ResolvedOnly | src/pages/CheckoutPage.tsx:28-35 | the kept lines are exactly the cart lines whose variant resolves |
| Cart.Resolve | src/pages/CheckoutPage.tsx:28-41 | each displayed line carries the product and variant its id resolves to |
| Cart.ResolveKeepsResolving | src/components/CartDrawer.tsx:18-31 | the displayed lines are the resolving cart lines, in order, with their id and quantity |
| Cart.ResolveEmptyIff | src/pages/CheckoutPage.tsx:78 | nothing is displayed exactly when no cart line resolves |
| Cart.FindLine | src/app/cart.tsx:79 | `findIndex`: the first line with the id, or none when no line has it |
| Cart.CanAdd | src/app/cart.tsx:75-76 | the guard of `add`: the variant resolves and is in stock; `Add` does nothing exactly when it fails |
| Cart.Add | src/app/cart.tsx:74-86 | an unknown or sold-out variant changes nothing; otherwise the cart opens, and a new variant is appended with the clamped quantity while an existing line gets the clamped sum |
| Cart.RemoveLines | src/app/cart.tsx:87-89 | exactly the lines with other ids remain, and nothing changes when no line has the id |
| Cart.Remove | src/app/cart.tsx:87-89 | `remove` keeps exactly the lines with other ids and does not touch the open flag |
| Cart.SetQty | src/app/cart.tsx:90-95 | every line with the id gets the clamped quantity; no line is added, removed or moved |
| Cart.Clear | src/app/cart.tsx:96 | `clear` empties the cart |
| Cart.AddPreservesValid | src/app/cart.tsx:74-86 | `add` keeps one line per variant, each with a quantity in `[1, 99]` |
| Cart.RemoveLinesSubsequence | src/app/cart.tsx:88 | filtering keeps the ids unique |
| Cart.RemovePreservesValid | src/app/cart.tsx:87-89 | `remove` keeps the cart invariant |
| Cart.SetQtyPreservesValid | src/app/cart.tsx:90-95 | `setQty` keeps the cart invariant |
| Cart.ClearPreservesValid | src/app/cart.tsx:96 | `clear` gives a valid cart |
| Cart.AddMergesExample | src/app/cart.tsx:79-83 | adding 3 and then 4 of one variant to an empty cart gives a single line of 7, and the drawer opens |
| Cart.AddMergeClampsExample | src/app/cart.tsx:79-83 | adding 50 and then 60 of one variant gives a single line at the cap of 99 |
| Cart.AddTotalItems | src/app/cart.tsx:74-86 | adding a new variant raises the item count by the clamped quantity; adding to an existing line changes only that line's count |
| Auth.EnsureAdmin | src/app/AuthContext.tsx:52-56 | the directory gains the default administrator at the end exactly when no account has its email |
| Auth.GetStoredUsers | src/app/AuthContext.tsx:46-65 | a missing, empty or unreadable directory becomes just the administrator; otherwise the stored accounts returned unchanged when one has the administrator email, and followed by exactly the default administrator record when none has |
| Auth.SeedingIsCaseSensitive | src/app/AuthContext.tsx:52 | a directory holding `Admin@munek.com` still gains a second administrator account |
| Auth.FindByEmail | src/app/AuthContext.tsx:97 | the first account whose lowercased email equals the lowercased email, or none |
| Auth.Login | src/app/AuthContext.tsx:92-118 | an unknown email fails with "user not found" and a wrong password with "wrong password", leaving the session unchanged; otherwise the session is the found account's user |
| Auth.NewUserId | src/app/AuthContext.tsx:132 | new user ids start with `user-` |
| Auth.Register | src/app/AuthContext.tsx:120-151 | an email already present in any case fails with "email taken"; otherwise exactly one client account is appended and becomes the session |
| Auth.Logout | src/app/AuthContext.tsx:153-156 | the session ends and the directory is untouched |
| Auth.Merge | src/app/AuthContext.tsx:161 | the spread `{ ...user, ...data }`: every field given in the patch wins, every other field is kept |
| Auth.FindById | src/app/AuthContext.tsx:167 | the first account with the id, or none |
| Auth.UpdateProfile | src/app/AuthContext.tsx:158-172 | without a session nothing changes; otherwise the session is merged, the first account with the session's id is merged, and every other account and every password is kept |
| Auth.UpdateProfileKeepsSessionBacked | src/app/AuthContext.tsx:158-172 | when the signed-in user's account is in the directory, it stays there and still matches the session after a profile update |
| Auth.LoginAndRegisterBackSession | src/app/AuthContext.tsx:92-151 | after login or register the session user is the user of some directory account |
| Auth.RegisterThenLogin | src/app/AuthContext.tsx:92-151 | after a successful registration, logging in with the same email and password succeeds and signs in the new user |
| Auth.RegisterRejectsCaseVariant | src/app/AuthContext.tsx:127-129 | registering an email that equals a stored one up to case fails, and the directory is only seeded |
| Orders.GetOrders | src/app/orders.ts:34-48 | a missing, empty or unreadable store gives no orders; otherwise the decoded list |
| Orders.OrdersOf | src/app/orders.ts:50-52 | a user's orders are exactly the stored orders with that user id |
| Orders.OrdersOfAppend | src/app/orders.ts:50-52 | the per-user filter distributes over concatenation, so it keeps stored order |
| Orders.FindOrder | src/app/orders.ts:56 | the first order with the id, or none |
| Orders.SaveOrder | src/app/orders.ts:54-63 | an order with a new id is appended; otherwise it replaces the first order with its id in place, and everything else is kept |
| Orders.SaveOrderIdempotent | src/app/orders.ts:54-63 | saving the same order twice is saving it once |
| Orders.ItemsSubtotalAppend | src/app/orders.ts:72 | the items' subtotal is additive over concatenation |
| Orders.ItemsSubtotal | src/app/orders.ts:72 | the reduce summing price times quantity over the items; `ItemsSubtotalAppend` makes it additive |
| Orders.ShippingFor | src/app/orders.ts:73 | shipping is free exactly from 999, and 99 below |
| Orders.OrderId | src/app/orders.ts:76 | order ids start with `ORD-` |
| Orders.CreateOrder | src/app/orders.ts:65-94 | the new order is pending and carries the user, the items and their subtotal; its shipping follows the threshold and its total is subtotal plus shipping; it is saved |
| Orders.SameInstantOrdersCollide | src/app/orders.ts:76 | a second order created in the same millisecond replaces the first in the store |
| Orders.UpdateOrderStatus | src/app/orders.ts:96-106 | an unknown id gives no order and changes nothing; otherwise that order gets the status and time, in place |
| Orders.UpdateOrderStatusKeepsOrders | src/app/orders.ts:96-106 | a status change keeps the number of orders and every other order |
| Orders.TotalsAgreePreserved | src/app/orders.ts:65-106 | creating orders and changing statuses keep every order's total equal to subtotal plus shipping |
| Orders.StatusOfLabel | src/app/orders.ts:108-117 | reading a label back yields a status with that label |
| Orders.StatusLabel | src/app/orders.ts:108-117 | the Spanish label of each of the five statuses; `StatusLabelRoundTrip` shows the labels are distinct |
| Orders.StatusColor | src/app/orders.ts:119-128 | the badge classes of each of the five statuses; `StatusColorInjective` shows they are distinct |
| Orders.StatusLabelRoundTrip | src/app/orders.ts:108-117 | every status's label reads back as that status, so labels are distinct |
| Orders.StatusColorInjective | src/app/orders.ts:119-128 | different statuses get different badge colors |
| Assistant.CloseFrom | src/components/AIAssistant.tsx:68 | the lazy `[\s\S]*?`: the first brace at or after a position that can close a block, or none |
| Assistant.WsEnd | src/components/AIAssistant.tsx:68 | the greedy `\s*`: the end of the run of white space from a position, every character before it white space and the one at it not |
| Assistant.MatchAt | src/components/AIAssistant.tsx:68 | a match found at a position starts there and has its parts in order inside the text |
| Assistant.MatchAtSound | src/components/AIAssistant.tsx:68 | what the search finds is a match of the pattern |
| Assistant.MatchAtComplete | src/components/AIAssistant.tsx:68 | every match of the pattern starting at a position is the one the search finds there |
| Assistant.NextMatch | src/components/AIAssistant.tsx:70-71 | `exec` finds the leftmost match at or after `lastIndex`, and no match starts before it |
| Assistant.Blocks | src/components/AIAssistant.tsx:70-94 | the global scan's matches lie inside the text and do not overlap, in order |
| Assistant.BlocksSound | src/components/AIAssistant.tsx:68-71 | every block of the scan is a match of the pattern, and the first is the leftmost match |
| Assistant.StripLength | src/components/AIAssistant.tsx:97 | the kept text and the scan's blocks together account for the whole text: their lengths add up to its length |
| Assistant.Strip | src/components/AIAssistant.tsx:97 | the global `replace` of the blocks with nothing: never longer than the text; `StripIsGaps` states which characters it keeps |
| Assistant.StripIsGaps | src/components/AIAssistant.tsx:97 | the replaced text is exactly the gaps before, between and after the scan's blocks, in order, so every block is deleted and nothing else |
| Assistant.NoOpenerNoBlocks | src/components/AIAssistant.tsx:97 | a reply without a json fence has no blocks and is left as it is |
| Assistant.ActionFor | src/components/AIAssistant.tsx:72-93 | a block yields an action exactly when it parses, its `action` is `add_to_cart`, its `variantId` is truthy and resolves; the action carries the owner's id and name and the variant's label and price |
| Assistant.ActionsOf | src/components/AIAssistant.tsx:70-94 | at most one action per block |
| Assistant.ActionsOfAppend | src/components/AIAssistant.tsx:70-94 | the actions of consecutive blocks concatenate, in block order |
| Assistant.ActionsOfSound | src/components/AIAssistant.tsx:74-88 | every action adds a variant that resolves, with the resolved product's and variant's data |
| Assistant.ActionsOfAllSound | src/components/AIAssistant.tsx:74-88 | every action of a block list adds a resolving variant with the owning product's id and name and the variant's label and price |
| Assistant.ParseActions | src/components/AIAssistant.tsx:66-100 | the actions are those of the global scan's blocks, one per yielding block, in block order; each is an add-to-cart of a catalog variant carrying its owning product's id and name and the variant's label and price; there are no more actions than blocks; the clean content is the reply with every block removed, then trimmed |
| Assistant.PlainReply | src/components/AIAssistant.tsx:66-100 | a reply without a json fence parses to its trimmed self and no actions |
| Assistant.ExampleScan | src/components/AIAssistant.tsx:68-97 | for `Listo` followed by one json block and spaces, the scan finds that one block and removing it leaves `Listo` and the spaces |
| Assistant.OneBlockReply | src/components/AIAssistant.tsx:66-100 | when `JSON.parse` reads the block `{"action":"add_to_cart","variantId":"v-crea-250"}` as that object, the reply parses to `Listo` and one add-to-cart action for `v-crea-250` carrying the catalog's data |
| Assistant.Open | src/components/AIAssistant.tsx:126-135 | opening an empty chat shows the welcome message, and a chat with messages is left alone |
| Assistant.History | src/components/AIAssistant.tsx:160-163 | the history sent to the model has no system messages and at most one entry per chat message |
| Assistant.HistoryAppend | src/components/AIAssistant.tsx:160-163 | the history maps and filters message by message, so it distributes over concatenation |
| Assistant.HistoryOfOne | src/components/AIAssistant.tsx:160-163 | the welcome message is left out, and any other message is sent with its role and content |
| Assistant.Submit | src/components/AIAssistant.tsx:141-165 | a blank input or a pending reply does nothing; otherwise the trimmed input is appended as a user message, the input clears, loading starts, and the request is the system prompt, the history and the new message |
| Assistant.BlankInputIgnored | src/components/AIAssistant.tsx:143 | whitespace-only input is not sent |
| Assistant.Receive | src/components/AIAssistant.tsx:166-189 | exactly one assistant message is appended and loading stops; a reply shows its clean content with its actions, or none when there are none, and a failure shows the apology |
| Assistant.ReceiveNeverEmptyActions | src/components/AIAssistant.tsx:175 | no message ever carries an empty action list |
| Assistant.ApplyAction | src/components/AIAssistant.tsx:137-139 | the add button does nothing for an unknown or sold-out variant; otherwise it opens the cart and either appends a line of one unit at the end or raises the variant's existing line by one unit, kept within [1, 99], in place, leaving every other line unchanged |
| Assistant.ApplyActionAdds | src/components/AIAssistant.tsx:137-139 | after an effective add, the cart has a line for the action's variant |
| CheckoutPage.Shipping | src/pages/CheckoutPage.tsx:43 | the checkout charges nothing from 999 and 150 below |
| CheckoutPage.Summarize | src/pages/CheckoutPage.tsx:43-44 | the summary's subtotal is the cart's, its shipping follows the checkout threshold, and its total is their sum |
| CheckoutPage.Render | src/pages/CheckoutPage.tsx:28-104 | the empty-cart screen shows exactly when no line resolves; otherwise the form lists the resolved lines with the summary |
| CheckoutPage.ShippingDisagreesWithOrders | src/pages/CheckoutPage.tsx:13-14 | the checkout and the order store agree on when shipping is free, but below 999 the checkout charges 51 more |
| CheckoutPage.FormShowsEveryResolvingLine | src/pages/CheckoutPage.tsx:28-41 | when every line resolves, the form lists every cart line in order |
| CartDrawer.Decrement | src/components/CartDrawer.tsx:122-126 | at one unit or fewer, exactly the lines with another id remain; above one unit, every line with that id takes one unit less (at most 99) in place, every other line is unchanged, and no line is added or dropped; the drawer's open flag is kept |
| CartDrawer.Increment | src/components/CartDrawer.tsx:139 | every line with that id takes one unit more, kept within [1, 99], in place; every other line and the open flag are unchanged |
| CartDrawer.DecrementSteps | src/components/CartDrawer.tsx:122-126 | on a valid cart the minus button drops a line at one unit, and otherwise lowers it by exactly one, leaving the other lines alone |
| CartDrawer.IncrementSteps | src/components/CartDrawer.tsx:139 | on a valid cart the plus button raises a line by one up to 99, leaving the other lines alone |
| CartDrawer.RemoveDropsOne | src/components/CartDrawer.tsx:162 | with unique ids the remove button drops exactly its line and keeps the rest in order |
| CartDrawer.RemoveLinesAppend | src/app/cart.tsx:87-89 | the `remove` filter distributes over concatenation, so the kept lines stay in order |
| CartDrawer.ClearAll | src/components/CartDrawer.tsx:195 | the clear button empties the cart |
| ProtectedRoute.Decide | src/components/ProtectedRoute.tsx:13-32 | spinner while loading, `/auth` with the current path without a user, `/dashboard` for a non-admin on an admin page; the page renders exactly when loaded, signed in and admitted |
| ProtectedRoute.AdmissionRules | src/components/ProtectedRoute.tsx:24-32 | an administrator is admitted everywhere, any user to plain pages, and requiring an administrator never admits more |
| AuthModal.Validate | src/components/AuthModal.tsx:37-67 | login succeeds exactly with email and password, forgot exactly with an email, and register exactly with all fields, matching passwords and at least six characters, each with its message |
| AuthModal.RegisterPrecedence | src/components/AuthModal.tsx:48-60 | register reports an empty field first, then a mismatch, then a short password |
| AuthModal.StartSubmit | src/components/AuthModal.tsx:31-32 | submitting starts loading and clears the message |
| AuthModal.FinishSubmit | src/components/AuthModal.tsx:37-69 | the submission ends with its message and loading off, the mode and fields unchanged |
| AuthModal.SwitchMode | src/components/AuthModal.tsx:72-75 | switching mode clears the message and keeps the fields |
| AuthModal.SubmitEndsIdle | src/components/AuthModal.tsx:29-70 | a whole submission ends idle with the validation message |
| SearchModal.Matching | src/components/SearchModal.tsx:16-20 | a product is listed exactly when its lowercased name, brand or category contains the lowercased query |
| SearchModal.MatchingAppend | src/components/SearchModal.tsx:16-20 | the filter distributes over concatenation, so results keep catalog order |
| SearchModal.Results | src/components/SearchModal.tsx:15-21 | a blank query lists nothing; otherwise the filter with the untrimmed query |
| SearchModal.BlankQueryShowsNothing | src/components/SearchModal.tsx:15 | a whitespace-only query lists nothing |
| AdminDashboard.Gate | src/pages/AdminDashboard.tsx:15-26 | the panel shows exactly for an administrator; a client is sent to `/dashboard` |
| AdminDashboard.Live | src/pages/AdminDashboard.tsx:119 | the non-cancelled orders are exactly the stored orders not cancelled |
| AdminDashboard.Revenue | src/pages/AdminDashboard.tsx:119 | income is zero when every order is cancelled and is non-negative for non-negative totals |
| AdminDashboard.RevenueIsLiveSum | src/pages/AdminDashboard.tsx:119 | income order by order equals the sum of the totals of the non-cancelled orders |
| AdminDashboard.RevenueAppend | src/pages/AdminDashboard.tsx:119 | income is additive over concatenation |
| AdminDashboard.RevenueReplace | src/pages/AdminDashboard.tsx:119 | replacing one order changes income by the difference of the two orders' contributions |
| AdminDashboard.CancelLowersRevenue | src/pages/AdminDashboard.tsx:207-212 | cancelling an order through the store lowers income by exactly what that order contributed |
| AdminDashboard.WithStatus | src/pages/AdminDashboard.tsx:203-205 | the status filter keeps exactly the orders in that status |
| AdminDashboard.PendingCount | src/pages/AdminDashboard.tsx:120 | the pending figure is the number of occurrences of the pending status among the orders' statuses, so it is zero exactly when no order is pending |
| AdminDashboard.WithStatusCounts | src/pages/AdminDashboard.tsx:203-205 | a status filter keeps as many orders as there are orders in that status |
| AdminDashboard.StatusesPartition | src/pages/AdminDashboard.tsx:203-205 | the five status filters together count every order once |
| AdminDashboard.Insert | src/pages/AdminDashboard.tsx:130 | inserting keeps the orders as a multiset |
| AdminDashboard.InsertNewestFirst | src/pages/AdminDashboard.tsx:130 | inserting into a newest-first list keeps it newest first |
| AdminDashboard.SortNewestFirst | src/pages/AdminDashboard.tsx:130 | the comparator sort returns a permutation ordered by creation time, newest first |
| AdminDashboard.SortKeepsNewestFirst | src/pages/AdminDashboard.tsx:130 | orders already newest first are left exactly as they are, ties included |
| AdminDashboard.SortIdempotent | src/pages/AdminDashboard.tsx:250 | sorting sorted rows changes nothing |
| AdminDashboard.RecentOrders | src/pages/AdminDashboard.tsx:130 | the recent list has five orders, or all when fewer; it is newest first and drawn from the orders |
| AdminDashboard.RecentAreNewest | src/pages/AdminDashboard.tsx:130 | no order left out of the recent list is newer than one in it |
| AdminDashboard.Filtered | src/pages/AdminDashboard.tsx:203-205 | `all` keeps every order; a status keeps exactly the orders in it |
| AdminDashboard.Rows | src/pages/AdminDashboard.tsx:250 | the table rows are the filtered orders, newest first |
| AdminDashboard.ChangeStatus | src/pages/AdminDashboard.tsx:207-212 | an unknown id changes nothing; otherwise the store updates that order, and the tab reloads its copy from the store |
| AdminDashboard.ChangedOrderShowsUnderNewStatus | src/pages/AdminDashboard.tsx:203-212 | after a change the order is listed under its new status |
| AdminDashboard.SearchProducts | src/pages/AdminDashboard.tsx:302-305 | a product is listed exactly when its lowercased name or brand contains the lowercased search |
| AdminDashboard.SearchProductsAppend | src/pages/AdminDashboard.tsx:302-305 | the product search distributes over concatenation, so catalog order is kept |
| AdminDashboard.EmptySearchListsAll | src/pages/AdminDashboard.tsx:302-305 | the empty search lists every product, in order |
| AdminDashboard.Clients | src/pages/AdminDashboard.tsx:393 | the listed users are exactly the stored accounts' users with the client role |
| AdminDashboard.ClientsAppend | src/pages/AdminDashboard.tsx:393 | the client filter distributes over concatenation, so stored order is kept |
| AdminDashboard.Customers | src/pages/AdminDashboard.tsx:389-402 | a missing, empty or unreadable directory lists nobody; otherwise exactly its clients, never the administrator |
| AdminDashboard.CustomerStats | src/pages/AdminDashboard.tsx:428-429 | a customer has no orders counted exactly when every order of theirs is cancelled |
| AdminDashboard.CustomerStatsAreOwnRevenue | src/pages/AdminDashboard.tsx:428-429 | a customer's count and spending are the overview figures over that customer's orders |
| AdminDashboard.CustomerSpentWithinRevenue | src/pages/AdminDashboard.tsx:119-429 | with no negative totals a customer's spending is between zero and the total income |
| ProductPage.FindProduct | src/pages/ProductPage.tsx:14 | the first catalog product with the route's id, or none |
| ProductPage.Open | src/pages/ProductPage.tsx:14-39 | an unknown id shows not-found; otherwise the product with its first variant chosen, quantity one |
| ProductPage.Choose | src/pages/ProductPage.tsx:120-123 | any variant can be chosen, in stock or not |
| ProductPage.StepDown | src/pages/ProductPage.tsx:143 | the minus button lowers the quantity by one, never below one |
| ProductPage.StepUp | src/pages/ProductPage.tsx:151 | the plus button raises the quantity by one, never above ten |
| ProductPage.PressStaysInRange | src/pages/ProductPage.tsx:17-151 | from the initial quantity no sequence of presses leaves one to ten |
| ProductPage.AddToCart | src/pages/ProductPage.tsx:41-47 | add acts only with a chosen in-stock variant: it adds the quantity to the cart and shows the confirmation |
| ProductPage.BuyNow | src/pages/ProductPage.tsx:49-54 | buy now adds the same way and goes to the checkout exactly when the add acts |
| ProductPage.AddUsesPageQuantity | src/pages/ProductPage.tsx:41-47 | a new in-stock catalog variant reaches the cart with exactly the page's quantity |
| ProductPage.SameCategory | src/pages/ProductPage.tsx:57-58 | the candidates are exactly the other products of the same category, in catalog order by `SameCategoryAppend` |
| ProductPage.SameCategoryAppend | src/pages/ProductPage.tsx:57-58 | the candidates of two catalog parts are those of the first part followed by those of the second, so catalog order is kept |
| ProductPage.Related | src/pages/ProductPage.tsx:57-59 | the first min(4, n) of the n same-category candidates, in catalog order: a prefix of the candidate list, all of them when there are at most four |
| ProductPage.RelatedExcludesSelf | src/pages/ProductPage.tsx:58 | a product is never related to itself |
| ProductCard.DefaultVariant | src/components/ProductCard.tsx:15 | the card starts on an in-stock variant when there is one, otherwise the first, and none only without variants |
| ProductCard.FirstInStock | src/components/ProductCard.tsx:15 | the first variant in stock, or none when all are sold out |
| ProductCard.DefaultIsFirstInStock | src/components/ProductCard.tsx:15 | the default is the earliest in-stock variant |
| ProductCard.FindVariant | src/components/ProductCard.tsx:20 | `find`: the first variant with the chosen id, no earlier variant having it, or none exactly when no variant has it |
| ProductCard.Initial | src/components/ProductCard.tsx:15-17 | the card starts on the default's id, or the empty id, with quantity one |
| ProductCard.Shown | src/components/ProductCard.tsx:19-21 | the shown variant is the chosen one, falling back to the default, and none only without variants |
| ProductCard.Pick | src/components/ProductCard.tsx:95-96 | the disabled button of a sold-out variant does not change the choice |
| ProductCard.StepQty | src/components/ProductCard.tsx:148-157 | the stepper keeps the quantity in `[1, 99]`, moving it by one within that range |
| ProductCard.AddClicked | src/components/ProductCard.tsx:165-168 | the add button hands the shown variant's id and the quantity to the cart exactly when that variant is in stock |
| ProductCard.ButtonLabel | src/components/ProductCard.tsx:176 | the button reads `AGREGAR` exactly when the shown variant is in stock, and `AGOTADO` otherwise |
| ProductCard.InitialAddsIffAnyInStock | src/components/ProductCard.tsx:15-23 | a fresh card offers to add exactly when some variant is in stock |
| ProductCard.Distinct | src/components/ProductCard.tsx:26-27 | `[...new Set(xs)]` has the same values as `xs`, each once |
| ProductCard.DistinctSeveralIff | src/components/ProductCard.tsx:26-27 | there is more than one distinct value exactly when two values differ |
| ProductCard.FlavorsOf | src/components/ProductCard.tsx:27 | the flavors are exactly the non-empty flavors of the variants |
| ProductCard.FlavorSelectorIff | src/components/ProductCard.tsx:85 | the flavor selector shows exactly when two variants have different non-empty flavors |
| ProductCard.SizeSelectorIff | src/components/ProductCard.tsx:115 | the size selector shows exactly when the flavor selector does not and two variants differ in size; the two never show together |

## Left out

- Reading and writing local storage, `JSON.parse` and `JSON.stringify` are left out. The model receives the stored value and a decoding function. The `Date` revival of `createdAt` and `updatedAt` is not modelled: times are integers.
- Restoring the session from storage on mount (`src/app/AuthContext.tsx:76-90`) and the auth provider's loading flag are left out. The loading flag enters the route guard as a parameter.
- The network call to the language model (`src/lib/groq.ts`), `buildSystemPrompt` and `formatContent` are left out. The reply enters `Assistant.Receive` as an optional string, where none is a failure. The system prompt is a parameter.
- Timers are left out: the simulated delays, the timed close of the dialogs, the "added" badge reset and the chat's scroll and focus effects.
- `formatMXN`, markup, styling, images, product descriptions and tags are display only.
- Prices and totals are integers, while the source uses floating-point numbers. NaN and infinite quantities are not modelled. `Cart.ClampInt` takes a real, so it does model the floor of fractional quantities.
- `Catalog.LookupIn` is a search standing for the `byVariantId` object. Keys inherited from `Object.prototype`, such as `constructor`, are not modelled.
- `String.prototype.toLowerCase` is a parameter `lower`, because case mapping is not modelled.
- AuthModal.Validate: counts the password's length in characters, whereas JavaScript counts UTF-16 code units, so the two differ for characters outside the Basic Multilingual Plane.
- AdminDashboard.SortNewestFirst: is proved sorted, a permutation, and unchanged on sorted input, but general stability among orders with equal creation times is not stated. `Array.prototype.sort` is stable, and the insertion places earlier orders first.
- AdminDashboard.RecentOrders: the source sorts the array returned by `getOrders` in place. That array is a fresh copy, so the model returns a sorted copy.
- The checkout's payment hand-off is left out: the WhatsApp message text and the payment links open external pages.
- The drawer's checkout alert, the navigation bar, the category menu and the client dashboard are outside the modelled core.
- `deleteAccount` is declared in `src/app/authTypes.ts:22` but the auth provider does not supply it. It belongs to the client dashboard and is not part of this model.
- The chat's `timestamp` field and message ids' exact digits are left out. Ids are the prefix followed by the clock reading in decimal.

=== FILE: admin_dashboard.dfy ===
/** The administrator's panel: its gate, the overview figures, the orders tab with its status
    filter and status change, the product search and the customers tab. Orders come from the
    store the orders module models; the customers tab reads the stored directory itself. */
module AdminDashboard {
  import opened Wrappers
  import Text
  import Catalog
  import Auth
  import Orders

  /** What the panel shows for the signed-in user: nothing without a user, a redirect to the client
      dashboard for a client, the panel for an administrator. */
  datatype Screen = Blank | RedirectToDashboard | Panel

  function Gate(user: Option<Auth.User>): (r: Screen)
    ensures r == Panel <==> user.Some? && user.value.role == Auth.Admin
    ensures r == RedirectToDashboard <==> user.Some? && user.value.role != Auth.Admin
  {
    if user.None? then Blank
    else if user.value.role != Auth.Admin then RedirectToDashboard
    else Panel
  }

  // ---------------------------------------------------------------------------------------------
  // Overview figures

  /** The orders that are not cancelled, in stored order. */
  function Live(orders: seq<Orders.Order>): (r: seq<Orders.Order>)
    ensures |r| <= |orders|
    ensures forall o :: o in r <==> o in orders && o.status != Orders.Cancelled
  {
    if orders == [] then []
    else
      var rest := Live(orders[1..]);
      assert forall o :: o in orders <==> o == orders[0] || o in orders[1..];
      if orders[0].status != Orders.Cancelled then [orders[0]] + rest else rest
  }

  /** The sum of the orders' totals, the `reduce` the panel applies after filtering. */
  function SumTotals(orders: seq<Orders.Order>): int {
    if orders == [] then 0 else orders[0].total + SumTotals(orders[1..])
  }

  /** Income: what each order contributes, its total unless it is cancelled. */
  function Contribution(o: Orders.Order): int {
    if o.status == Orders.Cancelled then 0 else o.total
  }

  /** The total income figure, order by order. */
  function Revenue(orders: seq<Orders.Order>): (r: int)
    ensures (forall o :: o in orders ==> o.status == Orders.Cancelled) ==> r == 0
    ensures (forall o :: o in orders ==> o.total >= 0) ==> r >= 0
  {
    if orders == [] then 0
    else
      assert forall o :: o in orders[1..] ==> o in orders;
      Contribution(orders[0]) + Revenue(orders[1..])
  }

  /** Income order by order equals the filter-then-sum the panel computes. */
  lemma {:induction false} RevenueIsLiveSum(orders: seq<Orders.Order>)
    ensures Revenue(orders) == SumTotals(Live(orders))
  {
    if orders != [] {
      RevenueIsLiveSum(orders[1..]);
    }
  }

  lemma {:induction false} RevenueAppend(a: seq<Orders.Order>, b: seq<Orders.Order>)
    ensures Revenue(a + b) == Revenue(a) + Revenue(b)
  {
    if a == [] {
      assert a + b == b;
    } else {
      assert (a + b)[1..] == a[1..] + b;
      RevenueAppend(a[1..], b);
    }
  }

  /** Replacing one order changes income by the difference of the two orders' contributions. */
  lemma {:induction false} RevenueReplace(orders: seq<Orders.Order>, i: int, o: Orders.Order)
    requires 0 <= i < |orders|
    ensures Revenue(orders[i := o]) == Revenue(orders) - Contribution(orders[i]) + Contribution(o)
  {
    if i > 0 {
      assert orders[i := o][1..] == orders[1..][i - 1 := o];
      RevenueReplace(orders[1..], i - 1, o);
    } else {
      assert orders[i := o][1..] == orders[1..];
    }
  }

  /** Cancelling a live order through the store removes exactly its total from income. */
  lemma CancelLowersRevenue(orders: seq<Orders.Order>, id: string, now: int)
    requires Orders.FindOrder(orders, id).Some?
    ensures var u := Orders.UpdateOrderStatus(orders, id, Orders.Cancelled, now);
      var i := Orders.FindOrder(orders, id).value;
      Revenue(u.orders) == Revenue(orders) - Contribution(orders[i])
  {
    var i := Orders.FindOrder(orders, id).value;
    var u := Orders.UpdateOrderStatus(orders, id, Orders.Cancelled, now);
    RevenueReplace(orders, i, u.result.value);
  }

  /** The orders in one status, in stored order. */
  function WithStatus(orders: seq<Orders.Order>, s: Orders.OrderStatus): (r: seq<Orders.Order>)
    ensures |r| <= |orders|
    ensures forall o :: o in r <==> o in orders && o.status == s
  {
    if orders == [] then []
    else
      var rest := WithStatus(orders[1..], s);
      assert forall o :: o in orders <==> o == orders[0] || o in orders[1..];
      if orders[0].status == s then [orders[0]] + rest else rest
  }

  /** The statuses of the orders, one per order, in order. */
  function Statuses(orders: seq<Orders.Order>): (r: seq<Orders.OrderStatus>)
    ensures |r| == |orders| && forall i :: 0 <= i < |orders| ==> r[i] == orders[i].status
  {
    seq(|orders|, i requires 0 <= i < |orders| => orders[i].status)
  }

  /** A status filter keeps as many orders as there are orders in that status. */
  lemma {:induction false} WithStatusCounts(orders: seq<Orders.Order>, s: Orders.OrderStatus)
    ensures |WithStatus(orders, s)| == multiset(Statuses(orders))[s]
  {
    if orders != [] {
      WithStatusCounts(orders[1..], s);
      assert Statuses(orders) == [orders[0].status] + Statuses(orders[1..]);
    }
  }

  /** The pending-orders figure: the number of orders in the pending status. */
  function PendingCount(orders: seq<Orders.Order>): (r: nat)
    ensures r <= |orders|
    ensures r == multiset(Statuses(orders))[Orders.Pending]
    ensures r == 0 <==> forall o :: o in orders ==> o.status != Orders.Pending
  {
    var p := WithStatus(orders, Orders.Pending);
    assert p != [] ==> p[0] in p;
    WithStatusCounts(orders, Orders.Pending);
    |p|
  }

  /** The five status filters split the orders: their sizes add up to the number of orders. */
  lemma {:induction false} StatusesPartition(orders: seq<Orders.Order>)
    ensures |WithStatus(orders, Orders.Pending)| + |WithStatus(orders, Orders.Confirmed)|
      + |WithStatus(orders, Orders.Shipped)| + |WithStatus(orders, Orders.Delivered)|
      + |WithStatus(orders, Orders.Cancelled)| == |orders|
  {
    if orders != [] {
      StatusesPartition(orders[1..]);
    }
  }

  // ---------------------------------------------------------------------------------------------
  // Newest first

  predicate NewestFirst(s: seq<Orders.Order>) {
    forall i, j :: 0 <= i < j < |s| ==> s[i].createdAt >= s[j].createdAt
  }

  /** Places `x` before the first order that is not newer than it, so that among equal creation times
      `x`, which came first, stays first. */
  function Insert(x: Orders.Order, t: seq<Orders.Order>): (r: seq<Orders.Order>)
    ensures |r| == |t| + 1
    ensures multiset(r) == multiset(t) + multiset{x}
  {
    if t == [] || t[0].createdAt <= x.createdAt then
      [x] + t
    else
      assert t == [t[0]] + t[1..];
      [t[0]] + Insert(x, t[1..])
  }

  /** An order no older than everything in a newest-first list can go in front of it. */
  lemma ConsNewestFirst(y: Orders.Order, s: seq<Orders.Order>)
    requires NewestFirst(s)
    requires forall k :: 0 <= k < |s| ==> s[k].createdAt <= y.createdAt
    ensures NewestFirst([y] + s)
  {
    var r := [y] + s;
    forall i, j | 0 <= i < j < |r| ensures r[i].createdAt >= r[j].createdAt {
      assert r[j] == s[j - 1];
      if i > 0 {
        assert r[i] == s[i - 1];
      }
    }
  }

  lemma {:induction false} InsertNewestFirst(x: Orders.Order, t: seq<Orders.Order>)
    requires NewestFirst(t)
    ensures NewestFirst(Insert(x, t))
  {
    if t == [] || t[0].createdAt <= x.createdAt {
      ConsNewestFirst(x, t);
    } else {
      var tail := t[1..];
      assert NewestFirst(tail) by {
        forall i, j | 0 <= i < j < |tail| ensures tail[i].createdAt >= tail[j].createdAt {
          assert tail[i] == t[i + 1] && tail[j] == t[j + 1];
        }
      }
      InsertNewestFirst(x, tail);
      var rest := Insert(x, tail);
      forall k | 0 <= k < |rest| ensures rest[k].createdAt <= t[0].createdAt {
        var y := rest[k];
        assert y in multiset(rest);
        if y != x {
          assert y in multiset(tail);
          var m :| 0 <= m < |tail| && tail[m] == y;
          assert t[m + 1] == y;
        }
      }
      ConsNewestFirst(t[0], rest);
    }
  }

  /** The comparator sort by creation time, newest first; the sort is stable, as is
      `Array.prototype.sort`. */
  function SortNewestFirst(s: seq<Orders.Order>): (r: seq<Orders.Order>)
    ensures |r| == |s|
    ensures multiset(r) == multiset(s)
    ensures NewestFirst(r)
  {
    if s == [] then []
    else
      assert s == [s[0]] + s[1..];
      InsertNewestFirst(s[0], SortNewestFirst(s[1..]));
      Insert(s[0], SortNewestFirst(s[1..]))
  }

  /** Orders already newest first come out of the sort unchanged, so sorting twice is sorting
      once. */
  lemma {:induction false} SortKeepsNewestFirst(s: seq<Orders.Order>)
    requires NewestFirst(s)
    ensures SortNewestFirst(s) == s
  {
    if s != [] {
      assert NewestFirst(s[1..]) by {
        forall i, j | 0 <= i < j < |s[1..]| ensures s[1..][i].createdAt >= s[1..][j].createdAt {
          assert s[1..][i] == s[i + 1] && s[1..][j] == s[j + 1];
        }
      }
      SortKeepsNewestFirst(s[1..]);
      assert s == [s[0]] + s[1..];
    }
  }

  lemma SortIdempotent(s: seq<Orders.Order>)
    ensures SortNewestFirst(SortNewestFirst(s)) == SortNewestFirst(s)
  {
    SortKeepsNewestFirst(SortNewestFirst(s));
  }

  /** How many recent orders the overview lists. */
  const RecentCount: nat := 5

  /** The overview's recent orders: the first five of the orders sorted newest first. */
  function RecentOrders(orders: seq<Orders.Order>): (r: seq<Orders.Order>)
    ensures |r| == if |orders| < RecentCount then |orders| else RecentCount
    ensures NewestFirst(r)
    ensures multiset(r) <= multiset(orders)
  {
    var sorted := SortNewestFirst(orders);
    var n := if |orders| < RecentCount then |orders| else RecentCount;
    assert sorted == sorted[..n] + sorted[n..];
    sorted[..n]
  }

  /** No order left out of the recent list is newer than any order in it. */
  lemma RecentAreNewest(orders: seq<Orders.Order>)
    ensures var r := RecentOrders(orders);
      forall o, i :: o in orders && o !in r && 0 <= i < |r| ==> o.createdAt <= r[i].createdAt
  {
    var sorted := SortNewestFirst(orders);
    var r := RecentOrders(orders);
    assert r == sorted[..|r|];
    forall o, i | o in orders && o !in r && 0 <= i < |r| ensures o.createdAt <= r[i].createdAt {
      assert o in multiset(sorted);
      var j :| 0 <= j < |sorted| && sorted[j] == o;
      assert forall k :: 0 <= k < |r| ==> sorted[k] != o;
      assert r[i] == sorted[i];
    }
  }

  // ---------------------------------------------------------------------------------------------
  // Orders tab

  datatype Filter = All | Only(status: Orders.OrderStatus)

  function Filtered(orders: seq<Orders.Order>, f: Filter): (r: seq<Orders.Order>)
    ensures f == All ==> r == orders
    ensures f.Only? ==> forall o :: o in r <==> o in orders && o.status == f.status
  {
    match f
    case All => orders
    case Only(s) => WithStatus(orders, s)
  }

  /** The tab's rows: the filtered orders, newest first. */
  function Rows(orders: seq<Orders.Order>, f: Filter): (r: seq<Orders.Order>)
    ensures NewestFirst(r)
    ensures multiset(r) == multiset(Filtered(orders, f))
  {
    SortNewestFirst(Filtered(orders, f))
  }

  /** The tab keeps its own copy of the orders; `store` is the persisted list. */
  datatype OrdersTab = OrdersTab(orders: seq<Orders.Order>, filter: Filter)

  datatype Changed = Changed(tab: OrdersTab, store: seq<Orders.Order>)

  /** `handleStatusChange`: the store updates the order, and only when it found one does the tab
      reload its copy from the store. */
  function ChangeStatus(tab: OrdersTab, store: seq<Orders.Order>, id: string, status: Orders.OrderStatus,
                        now: int): (r: Changed)
    ensures Orders.FindOrder(store, id).None? ==> r == Changed(tab, store)
    ensures Orders.FindOrder(store, id).Some? ==>
      var i := Orders.FindOrder(store, id).value;
      && r.store == store[i := store[i].(status := status, updatedAt := now)]
      && r.tab == OrdersTab(r.store, tab.filter)
  {
    var u := Orders.UpdateOrderStatus(store, id, status, now);
    if u.result.Some? then Changed(tab.(orders := u.orders), u.orders) else Changed(tab, u.orders)
  }

  /** After a successful change the changed order shows under its new status's filter. */
  lemma ChangedOrderShowsUnderNewStatus(tab: OrdersTab, store: seq<Orders.Order>, id: string,
                                        status: Orders.OrderStatus, now: int)
    requires Orders.FindOrder(store, id).Some?
    ensures var r := ChangeStatus(tab, store, id, status, now);
      var i := Orders.FindOrder(store, id).value;
      r.store[i] in Filtered(r.tab.orders, Only(status))
  {
    var i := Orders.FindOrder(store, id).value;
    var r := ChangeStatus(tab, store, id, status, now);
    assert r.store[i] in r.store;
  }

  // ---------------------------------------------------------------------------------------------
  // Products tab

  /** A product matches the admin search when its lowercased name or brand contains the lowercased
      search, which is not trimmed. */
  predicate ProductHit(p: Catalog.Product, search: string, lower: string -> string) {
    Text.Contains(lower(p.name), lower(search)) || Text.Contains(lower(p.brand), lower(search))
  }

  function SearchProducts(products: seq<Catalog.Product>, search: string, lower: string -> string)
    : (r: seq<Catalog.Product>)
    ensures |r| <= |products|
    ensures forall p :: p in r <==> p in products && ProductHit(p, search, lower)
  {
    if products == [] then []
    else
      var rest := SearchProducts(products[1..], search, lower);
      assert forall p :: p in products <==> p == products[0] || p in products[1..];
      if ProductHit(products[0], search, lower) then [products[0]] + rest else rest
  }

  /** The search distributes over a split of the product list, so catalog order is kept. */
  lemma {:induction false} SearchProductsAppend(a: seq<Catalog.Product>, b: seq<Catalog.Product>, search: string,
                                                lower: string -> string)
    ensures SearchProducts(a + b, search, lower) == SearchProducts(a, search, lower) + SearchProducts(b, search, lower)
  {
    if a == [] {
      assert a + b == b;
    } else {
      assert (a + b)[0] == a[0];
      assert (a + b)[1..] == a[1..] + b;
      SearchProductsAppend(a[1..], b, search, lower);
    }
  }

  /** The empty search lists every product, since every string contains the empty one. */
  lemma {:induction false} EmptySearchListsAll(products: seq<Catalog.Product>, lower: string -> string)
    requires lower("") == ""
    ensures SearchProducts(products, "", lower) == products
  {
    if products != [] {
      assert Text.OccursAt(lower(products[0].name), "", 0);
      EmptySearchListsAll(products[1..], lower);
    }
  }

  // ---------------------------------------------------------------------------------------------
  // Customers tab

  /** The clients of a stored directory, in stored order. */
  function Clients(accounts: seq<Auth.Account>): (r: seq<Auth.User>)
    ensures |r| <= |accounts|
    ensures forall u :: u in r <==> exists a :: a in accounts && a.user == u && u.role == Auth.Client
  {
    if accounts == [] then []
    else
      var rest := Clients(accounts[1..]);
      assert forall a :: a in accounts <==> a == accounts[0] || a in accounts[1..];
      if accounts[0].user.role == Auth.Client then [accounts[0].user] + rest else rest
  }

  /** The client filter distributes over a split of the directory, so stored order is kept. */
  lemma {:induction false} ClientsAppend(a: seq<Auth.Account>, b: seq<Auth.Account>)
    ensures Clients(a + b) == Clients(a) + Clients(b)
  {
    if a == [] {
      assert a + b == b;
    } else {
      assert (a + b)[0] == a[0];
      assert (a + b)[1..] == a[1..] + b;
      ClientsAppend(a[1..], b);
    }
  }

  /** The customers list: the clients of the stored directory, or nothing when it is missing or
      unreadable. The directory is not seeded here, so it never lists the administrator. */
  function Customers(raw: Option<string>, decode: string -> Option<seq<Auth.Account>>): (r: seq<Auth.User>)
    ensures forall u :: u in r ==> u.role == Auth.Client
    ensures raw.None? || raw == Some("") ==> r == []
    ensures raw.Some? && raw.value != "" && decode(raw.value).None? ==> r == []
    ensures raw.Some? && raw.value != "" && decode(raw.value).Some? ==>
      forall u :: u in r <==> exists a :: a in decode(raw.value).value && a.user == u && u.role == Auth.Client
  {
    if raw.None? || raw.value == "" then []
    else match decode(raw.value)
      case None => []
      case Some(accounts) => Clients(accounts)
  }

  datatype Stats = Stats(orderCount: nat, totalSpent: int)

  /** One customer's row figures: the number and total of their orders that are not cancelled. */
  function CustomerStats(orders: seq<Orders.Order>, userId: string): (r: Stats)
    ensures r.orderCount <= |orders|
    ensures r.orderCount == 0 <==> forall o :: o in orders ==> o.userId != userId || o.status == Orders.Cancelled
  {
    if orders == [] then Stats(0, 0)
    else
      var rest := CustomerStats(orders[1..], userId);
      assert forall o :: o in orders <==> o == orders[0] || o in orders[1..];
      if orders[0].userId == userId && orders[0].status != Orders.Cancelled then
        Stats(rest.orderCount + 1, rest.totalSpent + orders[0].total)
      else rest
  }

  /** A customer's figures are the overview's figures over that customer's orders. */
  lemma {:induction false} CustomerStatsAreOwnRevenue(orders: seq<Orders.Order>, userId: string)
    ensures CustomerStats(orders, userId).orderCount == |Live(Orders.OrdersOf(orders, userId))|
    ensures CustomerStats(orders, userId).totalSpent == Revenue(Orders.OrdersOf(orders, userId))
  {
    if orders != [] {
      CustomerStatsAreOwnRevenue(orders[1..], userId);
    }
  }

  /** With no negative totals, no customer has spent more than the total income. */
  lemma {:induction false} CustomerSpentWithinRevenue(orders: seq<Orders.Order>, userId: string)
    requires forall o :: o in orders ==> o.total >= 0
    ensures 0 <= CustomerStats(orders, userId).totalSpent <= Revenue(orders)
  {
    if orders != [] {
      assert forall o :: o in orders[1..] ==> o in orders;
      CustomerSpentWithinRevenue(orders[1..], userId);
    }
  }
}

=== FILE: assistant.dfy ===
/** The chat assistant's command extractor and its submit step. A reply is scanned for fenced
    blocks written as three backticks, `json`, optional whitespace, a brace-delimited body,
    optional whitespace and three closing backticks (the pattern ```` /```json\s*(\{[\s\S]*?\})\s*```/g ````).
    Each block naming a known variant yields one add-to-cart action; the blocks are then cut
    from the displayed text, which is trimmed. JSON parsing and the catalog are parameters. */
module Assistant {
  import opened Wrappers
  import Text
  import Json
  import Catalog
  import Cart

  /** A whitespace run starting at `i` ends here: the first index at or after `i` that is not `\s`. */
  function WsEnd(s: string, i: nat): (r: nat)
    requires i <= |s|
    ensures i <= r <= |s|
    ensures forall k :: i <= k < r ==> Text.IsSpace(s[k])
    ensures r < |s| ==> !Text.IsSpace(s[r])
    decreases |s| - i
  {
    if i < |s| && Text.IsSpace(s[i]) then WsEnd(s, i + 1) else i
  }

  /** Three backticks start at `i`. */
  predicate FenceAt(s: string, i: nat) {
    i + 3 <= |s| && s[i..i + 3] == "```"
  }

  /** A brace at `k` that can end a block body: after it come optional whitespace and a fence. */
  predicate ClosesAt(s: string, k: nat)
    requires k < |s|
  {
    s[k] == '}' && FenceAt(s, WsEnd(s, k + 1))
  }

  /** The first closing brace at or after `q`: the lazy `[\s\S]*?` stops at the first brace from
      which the rest of the pattern can match. */
  function CloseFrom(s: string, q: nat): (r: Option<nat>)
    requires q <= |s|
    ensures r.Some? ==> q <= r.value < |s| && ClosesAt(s, r.value)
    ensures r.Some? ==> forall k :: q <= k < r.value ==> !ClosesAt(s, k)
    ensures r.None? ==> forall k :: q <= k < |s| ==> !ClosesAt(s, k)
    decreases |s| - q
  {
    if q == |s| then None
    else if ClosesAt(s, q) then Some(q)
    else CloseFrom(s, q + 1)
  }

  /** One match of the pattern: `s[start..end]` is the whole block and `s[open..close + 1]` the
      captured JSON text. */
  datatype Block = Block(start: nat, open: nat, close: nat, end: nat)

  /** The opening `\`\`\`json` starts at `p`. */
  predicate OpenerAt(s: string, p: nat) {
    p + 7 <= |s| && s[p..p + 7] == "```json"
  }

  /** Every character of `s[i..j]` is white space. */
  predicate SpacesBetween(s: string, i: nat, j: nat) {
    i <= j <= |s| && forall k :: i <= k < j ==> Text.IsSpace(s[k])
  }

  /** No brace strictly between `i` and `j` can close a block. */
  predicate NoCloseBetween(s: string, i: nat, j: nat) {
    forall k :: i < k < j && k < |s| ==> !ClosesAt(s, k)
  }

  /** The positions of a block lie in order inside the text. */
  predicate Inside(s: string, b: Block) {
    b.start + 7 <= b.open < b.close && b.close + 4 <= b.end <= |s|
  }

  /** The pattern's meaning, stated independently of the search: opener, whitespace, a body from
      `{` to the first `}` that can close it, whitespace and a fence. */
  predicate Matches(s: string, b: Block) {
    && OpenerAt(s, b.start)
    && SpacesBetween(s, b.start + 7, b.open)
    && b.open < b.close < |s| && s[b.open] == '{' && s[b.close] == '}'
    && b.close + 1 <= b.end - 3
    && SpacesBetween(s, b.close + 1, b.end - 3)
    && FenceAt(s, b.end - 3)
    && NoCloseBetween(s, b.open, b.close)
  }

  /** The match of the pattern that starts exactly at `p`, if any. */
  function MatchAt(s: string, p: nat): (r: Option<Block>)
    requires p <= |s|
    ensures r.Some? ==> r.value.start == p && Inside(s, r.value)
  {
    if OpenerAt(s, p) then
      var a := WsEnd(s, p + 7);
      if a < |s| && s[a] == '{' then
        match CloseFrom(s, a + 1)
        case Some(q) =>
          var e := WsEnd(s, q + 1);
          assert s[e..e + 3] == "```";
          Some(Block(p, a, q, e + 3))
        case None => None
      else None
    else None
  }

  /** A whitespace run from `i` that stops at a non-space character `j` ends at `j`. */
  lemma {:induction false} WsEndIs(s: string, i: nat, j: nat)
    requires SpacesBetween(s, i, j) && j < |s| && !Text.IsSpace(s[j])
    ensures WsEnd(s, i) == j
    decreases j - i
  {
    if i < j {
      WsEndIs(s, i + 1, j);
    }
  }

  /** The first closing brace after an opening brace at `o` is the closing brace `c` with none
      between them. */
  lemma {:induction false} CloseFromIs(s: string, o: nat, c: nat)
    requires o < c < |s| && ClosesAt(s, c) && NoCloseBetween(s, o, c)
    ensures CloseFrom(s, o + 1) == Some(c)
    decreases c - o
  {
    if o + 1 < c {
      assert !ClosesAt(s, o + 1);
      CloseFromIs(s, o + 1, c);
    }
  }

  /** The search is sound: what `MatchAt` finds is a match of the pattern. */
  lemma MatchAtSound(s: string, p: nat)
    requires p <= |s| && MatchAt(s, p).Some?
    ensures Matches(s, MatchAt(s, p).value)
  {
  }

  /** The search is complete: a match of the pattern at `p` is the one `MatchAt` finds. */
  lemma MatchAtComplete(s: string, b: Block)
    requires Matches(s, b)
    ensures MatchAt(s, b.start) == Some(b)
  {
    OpenerRunEnds(s, b);
    BodyCloses(s, b);
    CloserRunEnds(s, b);
    MatchAtFromParts(s, b.start, b.open, b.close, b.end - 3);
  }

  lemma OpenerRunEnds(s: string, b: Block)
    requires Matches(s, b)
    ensures WsEnd(s, b.start + 7) == b.open
  {
    WsEndIs(s, b.start + 7, b.open);
  }

  lemma BodyCloses(s: string, b: Block)
    requires Matches(s, b)
    ensures CloseFrom(s, b.open + 1) == Some(b.close)
  {
    CloserRunEnds(s, b);
    CloseFromIs(s, b.open, b.close);
  }

  lemma CloserRunEnds(s: string, b: Block)
    requires Matches(s, b)
    ensures WsEnd(s, b.close + 1) == b.end - 3
  {
    FenceNotSpace(s, b.end - 3);
    WsEndIs(s, b.close + 1, b.end - 3);
  }

  /** `MatchAt` assembled from the positions its steps reach. */
  lemma MatchAtFromParts(s: string, p: nat, a: nat, q: nat, e: nat)
    requires OpenerAt(s, p) && WsEnd(s, p + 7) == a && a < |s| && s[a] == '{'
    requires CloseFrom(s, a + 1) == Some(q) && WsEnd(s, q + 1) == e
    ensures MatchAt(s, p) == Some(Block(p, a, q, e + 3))
  {
  }

  /** A fence does not start with white space. */
  lemma FenceNotSpace(s: string, i: nat)
    requires FenceAt(s, i)
    ensures i < |s| && !Text.IsSpace(s[i])
  {
    assert s[i] == s[i..i + 3][0];
  }

  /** The leftmost match starting at or after `from`: what `exec` finds with `lastIndex == from`. */
  function NextMatch(s: string, from: nat): (r: Option<Block>)
    requires from <= |s|
    ensures r.Some? ==> from <= r.value.start <= |s| && MatchAt(s, r.value.start) == r
    ensures r.Some? ==> forall p :: from <= p < r.value.start ==> MatchAt(s, p).None?
    ensures r.None? ==> forall p :: from <= p <= |s| ==> MatchAt(s, p).None?
    decreases |s| - from
  {
    match MatchAt(s, from)
    case Some(b) => Some(b)
    case None => if from == |s| then None else NextMatch(s, from + 1)
  }

  /** Every block matched by the global pattern, scanning on from the end of each match. */
  function Blocks(s: string, from: nat): (r: seq<Block>)
    requires from <= |s|
    ensures forall i :: 0 <= i < |r| ==> Inside(s, r[i]) && from <= r[i].start
    ensures forall i, j :: 0 <= i < j < |r| ==> r[i].end <= r[j].start
    decreases |s| - from
  {
    match NextMatch(s, from)
    case None => []
    case Some(b) => [b] + Blocks(s, b.end)
  }

  /** Every block of the scan is a match of the pattern; the first is the leftmost match. */
  lemma {:induction false} BlocksSound(s: string, from: nat, i: nat)
    requires from <= |s| && i < |Blocks(s, from)|
    ensures Matches(s, Blocks(s, from)[i])
    ensures Blocks(s, from)[0] == NextMatch(s, from).value
    decreases |s| - from
  {
    var b := NextMatch(s, from).value;
    if i == 0 {
      MatchAtSound(s, b.start);
    } else {
      assert Blocks(s, from)[i] == Blocks(s, b.end)[i - 1];
      BlocksSound(s, b.end, i - 1);
    }
  }

  /** The text with every block cut out (`replace` with the global pattern and `''`). */
  function Strip(s: string, from: nat): (r: string)
    requires from <= |s|
    ensures |r| <= |s| - from
    decreases |s| - from
  {
    match NextMatch(s, from)
    case None => s[from..]
    case Some(b) => s[from..b.start] + Strip(s, b.end)
  }

  /** The total length of a list of blocks. */
  function Covered(bs: seq<Block>): int {
    if bs == [] then 0 else (bs[0].end - bs[0].start) + Covered(bs[1..])
  }

  /** Cutting the blocks removes exactly their characters: the kept gaps and the blocks together
      account for the whole text. */
  lemma {:induction false} StripLength(s: string, from: nat)
    requires from <= |s|
    ensures |Strip(s, from)| + Covered(Blocks(s, from)) == |s| - from
    decreases |s| - from
  {
    match NextMatch(s, from)
    case None =>
    case Some(b) =>
      StripLength(s, b.end);
      assert Blocks(s, from)[1..] == Blocks(s, b.end);
  }

  /** The text outside a list of blocks: the gaps before, between and after them, in order. */
  function Gaps(s: string, from: nat, bs: seq<Block>): string
    requires from <= |s|
    requires forall i :: 0 <= i < |bs| ==> Inside(s, bs[i])
    requires forall i :: 0 <= i < |bs| ==> from <= bs[i].start
    requires forall i, j :: 0 <= i < j < |bs| ==> bs[i].end <= bs[j].start
    decreases |bs|
  {
    if bs == [] then s[from..]
    else
      assert Inside(s, bs[0]) && from <= bs[0].start;
      assert forall i :: 0 <= i < |bs[1..]| ==> bs[1..][i] == bs[i + 1] && bs[0].end <= bs[i + 1].start;
      s[from..bs[0].start] + Gaps(s, bs[0].end, bs[1..])
  }

  /** Cutting the blocks keeps exactly the gaps between the scan's blocks, in order. */
  lemma {:induction false} StripIsGaps(s: string, from: nat)
    requires from <= |s|
    ensures Strip(s, from) == Gaps(s, from, Blocks(s, from))
    decreases |s| - from
  {
    match NextMatch(s, from)
    case None =>
    case Some(b) =>
      StripIsGaps(s, b.end);
      assert Blocks(s, from)[1..] == Blocks(s, b.end);
  }

  /** Without an opening fence there is nothing to match and nothing to cut. */
  lemma {:induction false} NoOpenerNoBlocks(s: string, from: nat)
    requires from <= |s|
    requires forall p :: from <= p <= |s| ==> !Text.OccursAt(s, "```json", p)
    ensures Blocks(s, from) == [] && Strip(s, from) == s[from..]
  {
    if NextMatch(s, from).Some? {
      var b := NextMatch(s, from).value;
      assert Text.OccursAt(s, "```json", b.start);
    }
  }

  /** The action a chat reply carries (`type` is always `add_to_cart`). */
  datatype ActionType = AddToCart

  datatype Action = Action(
    kind: ActionType,
    productId: string,
    variantId: string,
    productName: string,
    variantLabel: string,
    price: int)

  /** The action one parsed block yields: it must say `add_to_cart`, name a truthy variant id, and
      that id must be a string matching a catalog variant; the first product holding it wins. */
  function ActionFor(cat: seq<Catalog.Product>, parsed: Option<Json.Json>): (r: Option<Action>)
    ensures r.Some? ==>
      && parsed.Some?
      && Json.Field(parsed.value, "action") == Some(Json.JString("add_to_cart"))
      && Json.Field(parsed.value, "variantId") == Some(Json.JString(r.value.variantId))
      && r.value.variantId != ""
      && Catalog.LookupIn(cat, r.value.variantId).Some?
      && var h := Catalog.LookupIn(cat, r.value.variantId).value;
         r.value == Action(AddToCart, h.product.id, r.value.variantId, h.product.name, h.variant.labelText, h.variant.price)
    ensures r.None? <==>
      || parsed.None?
      || Json.Field(parsed.value, "action") != Some(Json.JString("add_to_cart"))
      || Json.Field(parsed.value, "variantId").None?
      || !Json.Truthy(Json.Field(parsed.value, "variantId").value)
      || !Json.Field(parsed.value, "variantId").value.JString?
      || Catalog.LookupIn(cat, Json.Field(parsed.value, "variantId").value.s).None?
  {
    match parsed
    case None => None
    case Some(x) =>
      if Json.Field(x, "action") == Some(Json.JString("add_to_cart")) && Json.Field(x, "variantId").Some?
         && Json.Truthy(Json.Field(x, "variantId").value) && Json.Field(x, "variantId").value.JString?
      then
        var id := Json.Field(x, "variantId").value.s;
        match Catalog.LookupIn(cat, id)
        case Some(h) => Some(Action(AddToCart, h.product.id, id, h.product.name, h.variant.labelText, h.variant.price))
        case None => None
      else None
  }

  /** The captured JSON text of a block. */
  function BlockJson(s: string, b: Block): string
    requires Inside(s, b)
  {
    s[b.open..b.close + 1]
  }

  /** The actions of a list of blocks, one per block that yields one, in block order. */
  function ActionsOf(cat: seq<Catalog.Product>, parse: string -> Option<Json.Json>, s: string, bs: seq<Block>): (r: seq<Action>)
    requires forall i :: 0 <= i < |bs| ==> Inside(s, bs[i])
    ensures |r| <= |bs|
  {
    if bs == [] then []
    else
      var rest := ActionsOf(cat, parse, s, bs[1..]);
      match ActionFor(cat, parse(BlockJson(s, bs[0])))
      case Some(a) => [a] + rest
      case None => rest
  }

  /** Blocks contribute their actions independently: a block yielding nothing does not stop the
      blocks after it, and the actions of earlier blocks come first. */
  lemma {:induction false} ActionsOfAppend(cat: seq<Catalog.Product>, parse: string -> Option<Json.Json>, s: string,
                                           xs: seq<Block>, ys: seq<Block>)
    requires forall i :: 0 <= i < |xs| ==> Inside(s, xs[i])
    requires forall i :: 0 <= i < |ys| ==> Inside(s, ys[i])
    ensures forall i :: 0 <= i < |xs + ys| ==> Inside(s, (xs + ys)[i])
    ensures ActionsOf(cat, parse, s, xs + ys) == ActionsOf(cat, parse, s, xs) + ActionsOf(cat, parse, s, ys)
  {
    assert forall i :: 0 <= i < |xs + ys| ==> (xs + ys)[i] == if i < |xs| then xs[i] else ys[i - |xs|];
    if xs == [] {
      assert xs + ys == ys;
    } else {
      assert (xs + ys)[0] == xs[0];
      assert (xs + ys)[1..] == xs[1..] + ys;
      ActionsOfAppend(cat, parse, s, xs[1..], ys);
    }
  }

  /** Every action is an add-to-cart of a catalog variant, with the owning product's id and name
      and the variant's label and price. */
  lemma {:induction false} ActionsOfSound(cat: seq<Catalog.Product>, parse: string -> Option<Json.Json>, s: string,
                                          bs: seq<Block>, a: Action)
    requires forall i :: 0 <= i < |bs| ==> Inside(s, bs[i])
    requires a in ActionsOf(cat, parse, s, bs)
    ensures a.kind == AddToCart && Catalog.LookupIn(cat, a.variantId).Some?
    ensures var h := Catalog.LookupIn(cat, a.variantId).value;
      && h.product in cat && h.variant in h.product.variants && h.variant.id == a.variantId
      && a.productId == h.product.id && a.productName == h.product.name
      && a.variantLabel == h.variant.labelText && a.price == h.variant.price
  {
    Catalog.LookupInSound(cat, a.variantId);
    var first := ActionFor(cat, parse(BlockJson(s, bs[0])));
    if first != Some(a) {
      ActionsOfSound(cat, parse, s, bs[1..], a);
    }
  }

  /** An action is an add-to-cart of a catalog variant that carries the owning product's id and
      name and the variant's label and price. */
  predicate Resolved(cat: seq<Catalog.Product>, a: Action) {
    && a.kind == AddToCart && Catalog.LookupIn(cat, a.variantId).Some?
    && var h := Catalog.LookupIn(cat, a.variantId).value;
    && a.productId == h.product.id && a.productName == h.product.name
    && a.variantLabel == h.variant.labelText && a.price == h.variant.price
  }

  lemma ActionsOfAllSound(cat: seq<Catalog.Product>, parse: string -> Option<Json.Json>, s: string, bs: seq<Block>)
    requires forall i :: 0 <= i < |bs| ==> Inside(s, bs[i])
    ensures forall a :: a in ActionsOf(cat, parse, s, bs) ==> Resolved(cat, a)
  {
    forall a | a in ActionsOf(cat, parse, s, bs) ensures Resolved(cat, a) {
      ActionsOfSound(cat, parse, s, bs, a);
    }
  }

  datatype Parsed = Parsed(cleanContent: string, actions: seq<Action>)

  /** `parseActions(content)`. */
  function ParseActions(cat: seq<Catalog.Product>, parse: string -> Option<Json.Json>, content: string): (r: Parsed)
    ensures |r.actions| <= |Blocks(content, 0)|
    ensures r.actions == ActionsOf(cat, parse, content, Blocks(content, 0))
    ensures forall a :: a in r.actions ==> Resolved(cat, a)
    ensures r.cleanContent == Text.Trim(Strip(content, 0))
  {
    var bs := Blocks(content, 0);
    ActionsOfAllSound(cat, parse, content, bs);
    Parsed(Text.Trim(Strip(content, 0)), ActionsOf(cat, parse, content, bs))
  }

  /** A reply without blocks yields no actions and is shown trimmed. */
  lemma PlainReply(cat: seq<Catalog.Product>, parse: string -> Option<Json.Json>, content: string)
    requires !Text.Contains(content, "```json")
    ensures ParseActions(cat, parse, content) == Parsed(Text.Trim(content), [])
  {
    NoOpenerNoBlocks(content, 0);
    assert content[0..] == content;
  }

  /** The fields of the example's JSON object: the action the assistant is told to emit and the
      variant it names. */
  function ExampleFields(): string {
    "\"action\":" + "\"add_to_cart\"," + "\"variantId\":" + "\"v-crea-250\""
  }

  /** The JSON text of the example reply below. */
  function ExampleJson(): string {
    "{" + ExampleFields() + "}"
  }

  /** A reply with one block naming the 250 g creatine, between a word and a space. */
  function ExampleReply(): string {
    "Listo " + "```json" + "\n" + ExampleJson() + "\n```" + " "
  }

  predicate BraceFree(t: string) {
    forall k :: 0 <= k < |t| ==> t[k] != '}'
  }

  lemma BraceFreeConcat(a: string, b: string)
    requires BraceFree(a) && BraceFree(b)
    ensures BraceFree(a + b)
  {
    forall k | |a| <= k < |a + b| ensures (a + b)[k] != '}' {
      assert (a + b)[k] == b[k - |a|];
    }
  }

  /** The example's fields hold no closing brace, so the lazy body runs to the object's end. */
  lemma ExampleFieldsBraceFree()
    ensures BraceFree(ExampleFields())
  {
    var a, b, c, d := "\"action\":", "\"add_to_cart\",", "\"variantId\":", "\"v-crea-250\"";
    assert BraceFree(a) && BraceFree(b) && BraceFree(c) && BraceFree(d);
    BraceFreeConcat(a, b);
    BraceFreeConcat(a + b, c);
    BraceFreeConcat(a + b + c, d);
  }

  /** The example block, located by hand. */
  lemma ExampleMatches()
    ensures Matches(ExampleReply(), Block(6, 14, 62, 67))
    ensures BlockJson(ExampleReply(), Block(6, 14, 62, 67)) == ExampleJson()
    ensures forall p :: 0 <= p < 6 ==> !OpenerAt(ExampleReply(), p)
  {
    var s, f := ExampleReply(), ExampleFields();
    ExampleFieldsBraceFree();
    assert |f| == 47 && |ExampleJson()| == 49 && |s| == 68;
    assert s[6..13] == "```json";
    assert s[14..63] == ExampleJson();
    assert s[15..62] == f;
    assert s[64..67] == "```";
    assert WsEnd(s, 63) == 64;
    forall k | 14 < k < 62 ensures !ClosesAt(s, k) {
      assert s[k] == f[k - 15];
    }
    forall p | 0 <= p < 6 ensures !OpenerAt(s, p) {
      assert s[p] != '`';
      assert p + 7 <= |s| ==> s[p..p + 7][0] == s[p];
    }
  }

  /** The leftmost match in the example is its block, and nothing matches after it. */
  lemma ExampleNext()
    ensures NextMatch(ExampleReply(), 0) == Some(Block(6, 14, 62, 67))
    ensures NextMatch(ExampleReply(), 67).None?
  {
    ExampleMatches();
    MatchAtComplete(ExampleReply(), Block(6, 14, 62, 67));
  }

  /** The scan of the example finds that block alone and cuts it out. */
  lemma ExampleScan()
    ensures Blocks(ExampleReply(), 0) == [Block(6, 14, 62, 67)]
    ensures Strip(ExampleReply(), 0) == "Listo" + "  "
  {
    var s := ExampleReply();
    ExampleNext();
    assert |s| == 68 && s[67] == ' ';
    assert Strip(s, 67) == s[67..] == " ";
    assert s[..6] == "Listo ";
    assert Strip(s, 0) == s[0..6] + Strip(s, 67);
  }

  /** What the example shows once the block is cut: the word, trimmed. */
  lemma ExampleClean()
    ensures Text.Trim("Listo" + "  ") == "Listo"
  {
    var w, pad := "Listo", "  ";
    assert !Text.IsSpace(w[0]) && !Text.IsSpace(w[4]);
    Text.TrimPaddedWord(w, pad);
  }

  /** The example's block yields the action of the variant it names. */
  lemma ExampleAction(cat: seq<Catalog.Product>, parse: string -> Option<Json.Json>)
    requires parse(ExampleJson())
      == Some(Json.JObject(map["action" := Json.JString("add_to_cart"), "variantId" := Json.JString("v-crea-250")]))
    requires Catalog.LookupIn(cat, "v-crea-250").Some?
    ensures
      var h := Catalog.LookupIn(cat, "v-crea-250").value;
      ActionsOf(cat, parse, ExampleReply(), [Block(6, 14, 62, 67)])
        == [Action(AddToCart, h.product.id, "v-crea-250", h.product.name, h.variant.labelText, h.variant.price)]
  {
    ExampleMatches();
    var x := Json.JObject(map["action" := Json.JString("add_to_cart"), "variantId" := Json.JString("v-crea-250")]);
    assert Json.Field(x, "action") == Some(Json.JString("add_to_cart"));
    assert Json.Field(x, "variantId") == Some(Json.JString("v-crea-250"));
  }

  /** A concrete reply: one block naming the 250 g creatine yields one action carrying the
      catalog's data for that variant, and the block disappears from the shown text. On the
      storefront's own catalog the variant resolves (`Catalog.LookupOwner`). */
  lemma OneBlockReply(cat: seq<Catalog.Product>, parse: string -> Option<Json.Json>)
    requires parse(ExampleJson())
      == Some(Json.JObject(map["action" := Json.JString("add_to_cart"), "variantId" := Json.JString("v-crea-250")]))
    requires Catalog.LookupIn(cat, "v-crea-250").Some?
    ensures
      var r := ParseActions(cat, parse, ExampleReply());
      var h := Catalog.LookupIn(cat, "v-crea-250").value;
      && r.cleanContent == "Listo"
      && r.actions == [Action(AddToCart, h.product.id, "v-crea-250", h.product.name, h.variant.labelText, h.variant.price)]
  {
    ExampleScan();
    ExampleClean();
    ExampleAction(cat, parse);
  }

  // The chat panel's submit step. The request itself (`sendMessage`) is a network call: its
  // answer enters as the `response` argument of `Receive`, `None` standing for a thrown error.

  datatype ChatRole = UserRole | AssistantRole

  datatype ChatMessage = ChatMessage(id: string, role: ChatRole, content: string, actions: Option<seq<Action>>)

  datatype ApiRole = SystemRole | ApiUserRole | ApiAssistantRole

  datatype ApiMessage = ApiMessage(role: ApiRole, content: string)

  /** The panel's state: the transcript, the input box and the loading flag. */
  datatype Chat = Chat(messages: seq<ChatMessage>, input: string, loading: bool)

  const WelcomeId: string := "welcome"

  const WelcomeText: string :=
    "¡Hola! 👋 Soy **MUÑEK AI**, tu asistente de suplementos y fitness.\n\nPuedo ayudarte a:\n"
    + "- 🛒 Elegir y agregar productos al carrito\n- 💪 Consejos de ejercicio y rutinas\n"
    + "- 🥗 Asesoría nutricional\n- ❓ Resolver cualquier duda\n\n¿En qué te puedo ayudar hoy?"

  const Apology: string := "Lo siento, hubo un error al procesar tu mensaje. Por favor intenta de nuevo. 🙏"

  /** Opening the panel on an empty transcript shows the welcome message; otherwise nothing changes. */
  function Open(c: Chat): (r: Chat)
    ensures c.messages == [] ==> r.messages == [ChatMessage(WelcomeId, AssistantRole, WelcomeText, None)]
    ensures c.messages != [] ==> r == c
    ensures r.input == c.input && r.loading == c.loading
  {
    if c.messages == [] then c.(messages := [ChatMessage(WelcomeId, AssistantRole, WelcomeText, None)]) else c
  }

  function ApiRoleOf(r: ChatRole): ApiRole {
    match r
    case UserRole => ApiUserRole
    case AssistantRole => ApiAssistantRole
  }

  /** The earlier transcript as sent: every message except the welcome one, in order, reduced
      to role and content. */
  function History(messages: seq<ChatMessage>): (r: seq<ApiMessage>)
    ensures |r| <= |messages|
    ensures forall m :: m in r ==> m.role != SystemRole
  {
    if messages == [] then []
    else
      var m := messages[|messages| - 1];
      var init := History(messages[..|messages| - 1]);
      if m.id == WelcomeId then init else init + [ApiMessage(ApiRoleOf(m.role), m.content)]
  }

  /** History grows message by message, skipping the welcome message wherever it sits. */
  lemma {:induction false} HistoryAppend(a: seq<ChatMessage>, b: seq<ChatMessage>)
    ensures History(a + b) == History(a) + History(b)
    decreases |b|
  {
    if b == [] {
      assert a + b == a;
    } else {
      var init := b[..|b| - 1];
      assert (a + b)[..|a + b| - 1] == a + init;
      assert (a + b)[|a + b| - 1] == b[|b| - 1];
      HistoryAppend(a, init);
    }
  }

  /** The welcome message never reaches the request; any other message does, as itself. */
  lemma HistoryOfOne(m: ChatMessage)
    ensures m.id == WelcomeId ==> History([m]) == []
    ensures m.id != WelcomeId ==> History([m]) == [ApiMessage(ApiRoleOf(m.role), m.content)]
  {
    assert [m][..0] == [];
  }

  datatype Submitted = Ignored | Sent(chat: Chat, request: seq<ApiMessage>)

  /** The id of a message created at a clock reading. */
  function StampedId(prefix: string, now: nat): (id: string)
    ensures |id| > |prefix| && id[..|prefix|] == prefix
  {
    prefix + Text.Decimal(now)
  }

  /** `handleSubmit` up to the request: blank input or a pending request does nothing; otherwise
      the trimmed input is appended as a user message, the box is cleared, loading starts, and
      the request is the system prompt, the earlier transcript without the welcome message, and
      the new message. */
  function Submit(c: Chat, systemPrompt: string, now: nat): (r: Submitted)
    ensures r.Ignored? <==> Text.Trim(c.input) == [] || c.loading
    ensures r.Sent? ==>
      && |r.chat.messages| == |c.messages| + 1
      && r.chat.messages[..|c.messages|] == c.messages
      && r.chat.messages[|c.messages|] == ChatMessage(StampedId("user-", now), UserRole, Text.Trim(c.input), None)
      && r.chat.input == "" && r.chat.loading
      && |r.request| >= 2
      && r.request[0] == ApiMessage(SystemRole, systemPrompt)
      && r.request[|r.request| - 1] == ApiMessage(ApiUserRole, Text.Trim(c.input))
      && r.request[1..|r.request| - 1] == History(c.messages)
  {
    if Text.Trim(c.input) == [] || c.loading then Ignored
    else
      var text := Text.Trim(c.input);
      var user := ChatMessage(StampedId("user-", now), UserRole, text, None);
      var request := [ApiMessage(SystemRole, systemPrompt)] + History(c.messages) + [ApiMessage(ApiUserRole, text)];
      assert request[1..|request| - 1] == History(c.messages);
      Sent(Chat(c.messages + [user], "", true), request)
  }

  /** Whitespace-only input is ignored, whatever else the state holds. */
  lemma BlankInputIgnored(c: Chat, systemPrompt: string, now: nat)
    requires forall i :: 0 <= i < |c.input| ==> Text.IsSpace(c.input[i])
    ensures Submit(c, systemPrompt, now) == Ignored
  {
    Text.TrimEmptyIffBlank(c.input);
  }

  /** The end of `handleSubmit`: a reply is parsed and appended as an assistant message whose
      `actions` are present only when there is at least one; a failure appends the apology.
      Loading stops either way. */
  function Receive(cat: seq<Catalog.Product>, parse: string -> Option<Json.Json>, c: Chat,
                   response: Option<string>, now: nat): (r: Chat)
    ensures !r.loading && r.input == c.input
    ensures |r.messages| == |c.messages| + 1 && r.messages[..|c.messages|] == c.messages
    ensures response.None? ==>
      r.messages[|c.messages|] == ChatMessage(StampedId("error-", now), AssistantRole, Apology, None)
    ensures response.Some? ==>
      var m := r.messages[|c.messages|];
      var p := ParseActions(cat, parse, response.value);
      && m.id == StampedId("assistant-", now) && m.role == AssistantRole
      && m.content == p.cleanContent
      && (m.actions.Some? <==> p.actions != [])
      && (m.actions.Some? ==> m.actions.value == p.actions)
  {
    var m := match response
      case None => ChatMessage(StampedId("error-", now), AssistantRole, Apology, None)
      case Some(text) =>
        var p := ParseActions(cat, parse, text);
        ChatMessage(StampedId("assistant-", now), AssistantRole, p.cleanContent,
                    if |p.actions| > 0 then Some(p.actions) else None);
    var ms := c.messages + [m];
    assert ms[..|c.messages|] == c.messages;
    Chat(ms, c.input, false)
  }

  /** A transcript message never carries an empty action list. */
  lemma ReceiveNeverEmptyActions(cat: seq<Catalog.Product>, parse: string -> Option<Json.Json>, c: Chat,
                                 response: Option<string>, now: nat)
    requires forall i :: 0 <= i < |c.messages| ==> c.messages[i].actions != Some([])
    ensures var r := Receive(cat, parse, c, response, now);
      forall i :: 0 <= i < |r.messages| ==> r.messages[i].actions != Some([])
  {
    var r := Receive(cat, parse, c, response, now);
    assert forall i :: 0 <= i < |c.messages| ==> r.messages[i] == c.messages[i];
  }

  /** `handleAddToCart`: the action's variant is added to the cart once. */
  function ApplyAction(cat: seq<Catalog.Product>, st: Cart.CartState, a: Action): (r: Cart.CartState)
    ensures Cart.CanAdd(cat, a.variantId) ==> r.cartOpen
    ensures !Cart.CanAdd(cat, a.variantId) ==> r == st
    ensures Cart.CanAdd(cat, a.variantId) && Cart.FindLine(st.lines, a.variantId).None? ==>
      r.lines == st.lines + [Cart.CartLine(a.variantId, 1)]
    ensures Cart.CanAdd(cat, a.variantId) && Cart.FindLine(st.lines, a.variantId).Some? ==>
      var i := Cart.FindLine(st.lines, a.variantId).value;
      var q := st.lines[i].qty + 1;
      && |r.lines| == |st.lines|
      && r.lines[i] == Cart.CartLine(a.variantId,
           if q > Cart.MaxQty then Cart.MaxQty else if q < Cart.MinQty then Cart.MinQty else q)
      && forall j :: 0 <= j < |st.lines| && j != i ==> r.lines[j] == st.lines[j]
  {
    Cart.Add(cat, st, a.variantId, 1.0)
  }

  /** Applying an action of a purchasable variant leaves the cart with a line for it. */
  lemma ApplyActionAdds(cat: seq<Catalog.Product>, st: Cart.CartState, a: Action)
    requires Cart.CanAdd(cat, a.variantId)
    ensures var r := ApplyAction(cat, st, a);
      Cart.FindLine(r.lines, a.variantId).Some?
  {
    var r := ApplyAction(cat, st, a);
    match Cart.FindLine(st.lines, a.variantId)
    case None =>
      assert r.lines[|st.lines|].variantId == a.variantId;
    case Some(i) =>
      assert r.lines[i].variantId == a.variantId;
  }
}

=== FILE: auth.dfy ===
/** The mock authentication store: a directory of accounts (user records with their plaintext
    password) and an optional session holding a user record without its password. Reading
    the directory always seeds the fixed administrator account when it is missing. Storage,
    the artificial latency, the clock and lowercasing are parameters: `raw`/`decode` stand
    for the stored text and `JSON.parse`, `now` for `Date.now()`, and `lower` for
    `String.prototype.toLowerCase`. */
module Auth {
  import opened Wrappers
  import Text

  datatype Role = Admin | Client

  datatype User = User(
    id: string,
    email: string,
    name: string,
    role: Role,
    phone: Option<string>,
    address: Option<string>,
    createdAt: int)

  /** A directory record: the user record plus its password (`User & { password }`). */
  datatype Account = Account(user: User, password: string)

  datatype AuthState = AuthState(directory: seq<Account>, session: Option<User>)

  /** The answer of `login` and `register`: `{ success: true }` or `{ success: false, error }`. */
  datatype AuthResult = Success | Failure(error: string)

  datatype Outcome = Outcome(result: AuthResult, state: AuthState)

  const AdminEmail: string := "admin@munek.com"
  const UserNotFound: string := "Usuario no encontrado"
  const WrongPassword: string := "Contraseña incorrecta"
  const EmailTaken: string := "Este correo ya está registrado"

  /** `new Date('2024-01-01')` in milliseconds since the epoch. */
  const AdminCreatedAt: int := 1704067200000

  function DefaultAdmin(): Account {
    Account(User("admin-001", AdminEmail, "Administrador", Admin, None, None, AdminCreatedAt), "admin123")
  }

  /** Some record carries exactly the administrator's email (compared with `===`). */
  predicate HasAdmin(users: seq<Account>) {
    exists i :: 0 <= i < |users| && users[i].user.email == AdminEmail
  }

  /** The seeding step of `getStoredUsers`: the default administrator is appended when no
      record has its email, and the list is otherwise returned as it is. */
  function EnsureAdmin(users: seq<Account>): (r: seq<Account>)
    ensures HasAdmin(r)
    ensures HasAdmin(users) ==> r == users
    ensures !HasAdmin(users) ==> r == users + [DefaultAdmin()]
  {
    if HasAdmin(users) then users
    else
      var r := users + [DefaultAdmin()];
      assert r[|users|].user.email == AdminEmail;
      r
  }

  /** `getStoredUsers`: absent, empty or unreadable storage yields just the administrator;
      a readable list is seeded with it when missing. */
  function GetStoredUsers(raw: Option<string>, decode: string -> Option<seq<Account>>): (r: seq<Account>)
    ensures HasAdmin(r)
    ensures raw.None? || raw == Some("") ==> r == [DefaultAdmin()]
    ensures raw.Some? && raw.value != "" && decode(raw.value).None? ==> r == [DefaultAdmin()]
    ensures raw.Some? && raw.value != "" && decode(raw.value).Some? ==>
      var users := decode(raw.value).value;
      && (HasAdmin(users) ==> r == users)
      && (!HasAdmin(users) ==> r == users + [DefaultAdmin()])
  {
    if raw.None? || raw.value == "" then EnsureAdmin([])
    else match decode(raw.value)
      case None => EnsureAdmin([])
      case Some(users) => EnsureAdmin(users)
  }

  /** Seeding compares emails exactly, unlike login and register: a directory whose only
      administrator is spelled with capitals gets a second administrator record. */
  lemma SeedingIsCaseSensitive()
    ensures
      var upper := Account(DefaultAdmin().user.(email := "Admin@munek.com"), "admin123");
      EnsureAdmin([upper]) == [upper, DefaultAdmin()]
  {
    var upper := Account(DefaultAdmin().user.(email := "Admin@munek.com"), "admin123");
    assert "Admin@munek.com"[0] != AdminEmail[0];
    assert !HasAdmin([upper]);
  }

  /** The directory record with the given email, compared through `lower`; the first one wins. */
  function FindByEmail(users: seq<Account>, email: string, lower: string -> string): (r: Option<nat>)
    ensures r.Some? ==> r.value < |users| && lower(users[r.value].user.email) == lower(email)
    ensures r.Some? ==> forall j :: 0 <= j < r.value ==> lower(users[j].user.email) != lower(email)
    ensures r.None? <==> forall j :: 0 <= j < |users| ==> lower(users[j].user.email) != lower(email)
  {
    if users == [] then None
    else if lower(users[0].user.email) == lower(email) then Some(0)
    else match FindByEmail(users[1..], email, lower)
      case Some(i) => Some(i + 1)
      case None => None
  }

  /** `login(email, password)`. The directory is re-read (and so seeded); the session changes
      only on success, to the first case-insensitive email match without its password. */
  function Login(st: AuthState, email: string, password: string, lower: string -> string): (r: Outcome)
    ensures r.state.directory == EnsureAdmin(st.directory)
    ensures FindByEmail(EnsureAdmin(st.directory), email, lower).None? ==>
      r.result == Failure(UserNotFound) && r.state.session == st.session
    ensures FindByEmail(EnsureAdmin(st.directory), email, lower).Some? ==>
      var acct := EnsureAdmin(st.directory)[FindByEmail(EnsureAdmin(st.directory), email, lower).value];
      && (acct.password != password ==> r.result == Failure(WrongPassword) && r.state.session == st.session)
      && (acct.password == password ==> r.result == Success && r.state.session == Some(acct.user))
  {
    var users := EnsureAdmin(st.directory);
    match FindByEmail(users, email, lower)
    case None => Outcome(Failure(UserNotFound), AuthState(users, st.session))
    case Some(i) =>
      if users[i].password != password then Outcome(Failure(WrongPassword), AuthState(users, st.session))
      else Outcome(Success, AuthState(users, Some(users[i].user)))
  }

  datatype RegisterData = RegisterData(email: string, password: string, name: string, phone: Option<string>)

  /** The id `register` gives a new user: `user-` and the clock reading. */
  function NewUserId(now: nat): (id: string)
    ensures |id| > 5 && id[..5] == "user-"
  {
    "user-" + Text.Decimal(now)
  }

  /** `register(data)`. A case-insensitive email clash fails and adds no user; otherwise exactly one
      client record is appended and the session becomes that record without its password. */
  function Register(st: AuthState, data: RegisterData, now: nat, lower: string -> string): (r: Outcome)
    ensures FindByEmail(EnsureAdmin(st.directory), data.email, lower).Some? ==>
      r == Outcome(Failure(EmailTaken), AuthState(EnsureAdmin(st.directory), st.session))
    ensures FindByEmail(EnsureAdmin(st.directory), data.email, lower).None? ==>
      && r.result == Success
      && |r.state.directory| == |EnsureAdmin(st.directory)| + 1
      && r.state.directory[..|EnsureAdmin(st.directory)|] == EnsureAdmin(st.directory)
      && var added := r.state.directory[|EnsureAdmin(st.directory)|];
         && added.user == User(NewUserId(now), data.email, data.name, Client, data.phone, None, now)
         && added.password == data.password
         && r.state.session == Some(added.user)
  {
    var users := EnsureAdmin(st.directory);
    if FindByEmail(users, data.email, lower).Some? then
      Outcome(Failure(EmailTaken), AuthState(users, st.session))
    else
      var user := User(NewUserId(now), data.email, data.name, Client, data.phone, None, now);
      var users' := users + [Account(user, data.password)];
      assert users'[..|users|] == users;
      Outcome(Success, AuthState(users', Some(user)))
  }

  /** `logout()`. */
  function Logout(st: AuthState): (r: AuthState)
    ensures r.session.None? && r.directory == st.directory
  {
    st.(session := None)
  }

  /** The fields passed to `updateProfile`: `None` for a key that is absent from the object. */
  datatype Patch = Patch(
    id: Option<string>,
    email: Option<string>,
    name: Option<string>,
    role: Option<Role>,
    phone: Option<Option<string>>,
    address: Option<Option<string>>,
    createdAt: Option<int>)

  /** `{ ...u, ...patch }`: every present key overrides, every absent one is kept. */
  function Merge(u: User, p: Patch): (r: User)
    ensures r.id == p.id.GetOr(u.id) && r.email == p.email.GetOr(u.email)
    ensures r.name == p.name.GetOr(u.name) && r.role == p.role.GetOr(u.role)
    ensures r.phone == p.phone.GetOr(u.phone) && r.address == p.address.GetOr(u.address)
    ensures r.createdAt == p.createdAt.GetOr(u.createdAt)
  {
    User(p.id.GetOr(u.id), p.email.GetOr(u.email), p.name.GetOr(u.name), p.role.GetOr(u.role),
         p.phone.GetOr(u.phone), p.address.GetOr(u.address), p.createdAt.GetOr(u.createdAt))
  }

  /** The first directory record with the given user id. */
  function FindById(users: seq<Account>, id: string): (r: Option<nat>)
    ensures r.Some? ==> r.value < |users| && users[r.value].user.id == id
    ensures r.Some? ==> forall j :: 0 <= j < r.value ==> users[j].user.id != id
    ensures r.None? ==> forall j :: 0 <= j < |users| ==> users[j].user.id != id
  {
    if users == [] then None
    else if users[0].user.id == id then Some(0)
    else match FindById(users[1..], id)
      case Some(i) => Some(i + 1)
      case None => None
  }

  /** `updateProfile(patch)`. Without a session nothing happens. Otherwise the patch is merged into
      the session and into the first directory record with the session's id; its password and
      every other record stay as they were. */
  function UpdateProfile(st: AuthState, patch: Patch): (r: AuthState)
    ensures st.session.None? ==> r == st
    ensures st.session.Some? ==>
      var users := EnsureAdmin(st.directory);
      && r.session == Some(Merge(st.session.value, patch))
      && |r.directory| == |users|
      && (forall j :: 0 <= j < |users| && users[j].user.id != st.session.value.id ==> r.directory[j] == users[j])
      && (forall j :: 0 <= j < |users| ==> r.directory[j].password == users[j].password)
      && match FindById(users, st.session.value.id)
         case None => r.directory == users
         case Some(i) =>
           && r.directory[i] == Account(Merge(users[i].user, patch), users[i].password)
           && forall j :: 0 <= j < |users| && j != i ==> r.directory[j] == users[j]
  {
    match st.session
    case None => st
    case Some(u) =>
      var users := EnsureAdmin(st.directory);
      var users' := match FindById(users, u.id)
        case None => users
        case Some(i) => users[i := Account(Merge(users[i].user, patch), users[i].password)];
      AuthState(users', Some(Merge(u, patch)))
  }

  /** The session is a directory record without its password. */
  predicate SessionBacked(st: AuthState) {
    st.session.Some? ==> exists i :: 0 <= i < |st.directory| && st.directory[i].user == st.session.value
  }

  /** The session stays backed by the first record with its id across a profile update. */
  lemma UpdateProfileKeepsSessionBacked(st: AuthState, patch: Patch)
    requires st.session.Some?
    requires var users := EnsureAdmin(st.directory);
      FindById(users, st.session.value.id).Some?
      && users[FindById(users, st.session.value.id).value].user == st.session.value
    ensures SessionBacked(UpdateProfile(st, patch))
  {
    var users := EnsureAdmin(st.directory);
    var i := FindById(users, st.session.value.id).value;
    assert UpdateProfile(st, patch).directory[i].user == UpdateProfile(st, patch).session.value;
  }

  /** Logging in and registering leave the session backed by a directory record. */
  lemma LoginAndRegisterBackSession(st: AuthState, email: string, password: string, data: RegisterData,
                                    now: nat, lower: string -> string)
    requires SessionBacked(st)
    ensures SessionBacked(Login(st, email, password, lower).state)
    ensures SessionBacked(Register(st, data, now, lower).state)
  {
    var users := EnsureAdmin(st.directory);
    if st.session.Some? {
      var i :| 0 <= i < |st.directory| && st.directory[i].user == st.session.value;
      assert users[i] == st.directory[i];
    }
    var r := Register(st, data, now, lower).state;
    if FindByEmail(users, data.email, lower).None? {
      assert r.directory[|users|].user == r.session.value;
    }
    var l := Login(st, email, password, lower).state;
    if l.session.Some? && l.session != st.session {
      var i := FindByEmail(users, email, lower).value;
      assert l.directory[i].user == l.session.value;
    }
  }

  /** Registering and then logging in with the same email and password succeeds, and the session is
      the newly registered user. */
  lemma RegisterThenLogin(st: AuthState, data: RegisterData, now: nat, lower: string -> string)
    requires Register(st, data, now, lower).result == Success
    ensures
      var reg := Register(st, data, now, lower).state;
      var log := Login(reg, data.email, data.password, lower);
      log.result == Success && log.state.session == reg.session
  {
    var users := EnsureAdmin(st.directory);
    var reg := Register(st, data, now, lower).state;
    assert reg.directory[..|users|] == users;
    forall j | 0 <= j < |users| ensures lower(reg.directory[j].user.email) != lower(data.email) {
      assert reg.directory[j] == users[j];
    }
    assert HasAdmin(reg.directory) by {
      var k :| 0 <= k < |users| && users[k].user.email == AdminEmail;
      assert reg.directory[k] == users[k];
    }
    assert EnsureAdmin(reg.directory) == reg.directory;
    assert FindByEmail(reg.directory, data.email, lower) == Some(|users|);
  }

  /** A registration whose email equals an existing one up to case is refused and adds no user. */
  lemma RegisterRejectsCaseVariant(st: AuthState, data: RegisterData, now: nat, lower: string -> string, i: nat)
    requires i < |st.directory| && lower(st.directory[i].user.email) == lower(data.email)
    ensures Register(st, data, now, lower).result == Failure(EmailTaken)
    ensures Register(st, data, now, lower).state.directory == EnsureAdmin(st.directory)
  {
    assert EnsureAdmin(st.directory)[i] == st.directory[i];
  }
}

=== FILE: auth_modal.dfy ===
/** The sign-in dialog's submit handler: which message a submission shows in each mode, and in
    which order the register checks apply. The simulated delays and the timed close and reset
    after a success are left out. */
module AuthModal {
  import opened Wrappers

  datatype Mode = Login | Register | Forgot

  datatype Kind = Success | Error

  datatype Message = Message(kind: Kind, text: string)

  datatype Fields = Fields(email: string, password: string, name: string, confirmPassword: string)

  datatype Modal = Modal(mode: Mode, loading: bool, message: Option<Message>, fields: Fields)

  const CompleteAllFields: string := "Por favor completa todos los campos"
  const PasswordsDiffer: string := "Las contraseñas no coinciden"
  const PasswordTooShort: string := "La contraseña debe tener al menos 6 caracteres"
  const Welcome: string := "¡Bienvenido! Iniciando sesión..."
  const AccountCreated: string := "¡Cuenta creada! Revisa tu correo para verificar."
  const ResetSent: string := "Te enviamos un correo para restablecer tu contraseña."
  const EmailRequired: string := "Ingresa tu correo electrónico"

  /** The shortest password registration accepts. */
  const MinPasswordLength: int := 6

  /** The message a submission ends with. */
  function Validate(mode: Mode, f: Fields): (r: Message)
    ensures mode == Login ==>
      (r.kind == Success <==> f.email != "" && f.password != "")
      && r == (if r.kind == Success then Message(Success, Welcome) else Message(Error, CompleteAllFields))
    ensures mode == Forgot ==>
      (r.kind == Success <==> f.email != "")
      && r == (if r.kind == Success then Message(Success, ResetSent) else Message(Error, EmailRequired))
    ensures mode == Register ==>
      (r.kind == Success <==>
        f.name != "" && f.email != "" && f.password != "" && f.confirmPassword != ""
        && f.password == f.confirmPassword && |f.password| >= MinPasswordLength)
  {
    match mode
    case Login =>
      if f.email != "" && f.password != "" then Message(Success, Welcome) else Message(Error, CompleteAllFields)
    case Register =>
      if f.name == "" || f.email == "" || f.password == "" || f.confirmPassword == "" then Message(Error, CompleteAllFields)
      else if f.password != f.confirmPassword then Message(Error, PasswordsDiffer)
      else if |f.password| < MinPasswordLength then Message(Error, PasswordTooShort)
      else Message(Success, AccountCreated)
    case Forgot =>
      if f.email != "" then Message(Success, ResetSent) else Message(Error, EmailRequired)
  }

  /** The register checks apply in order: an empty field is reported first, then a mismatch, then a
      short password. */
  lemma RegisterPrecedence(f: Fields)
    ensures f.name == "" || f.email == "" || f.password == "" || f.confirmPassword == "" ==>
      Validate(Register, f) == Message(Error, CompleteAllFields)
    ensures (f.name != "" && f.email != "" && f.password != "" && f.confirmPassword != ""
             && f.password != f.confirmPassword) ==> Validate(Register, f) == Message(Error, PasswordsDiffer)
    ensures (f.name != "" && f.email != "" && f.password != "" && f.password == f.confirmPassword
             && |f.password| < MinPasswordLength) ==> Validate(Register, f) == Message(Error, PasswordTooShort)
  {
  }

  /** The start of a submission: loading begins and the old message goes. */
  function StartSubmit(m: Modal): (r: Modal)
    ensures r.loading && r.message.None? && r.mode == m.mode && r.fields == m.fields
  {
    m.(loading := true, message := None)
  }

  /** The end of a submission: the validation message shows and loading stops, in every mode. */
  function FinishSubmit(m: Modal): (r: Modal)
    ensures !r.loading && r.message == Some(Validate(m.mode, m.fields))
    ensures r.mode == m.mode && r.fields == m.fields
  {
    m.(loading := false, message := Some(Validate(m.mode, m.fields)))
  }

  /** Switching mode clears the message and keeps the typed fields. */
  function SwitchMode(m: Modal, mode: Mode): (r: Modal)
    ensures r.mode == mode && r.message.None? && r.fields == m.fields && r.loading == m.loading
  {
    m.(mode := mode, message := None)
  }

  /** A whole submission leaves the dialog idle whatever message it had before. */
  lemma SubmitEndsIdle(m: Modal)
    ensures var r := FinishSubmit(StartSubmit(m));
      !r.loading && r.message == Some(Validate(m.mode, m.fields))
  {
  }
}

=== FILE: cart.dfy ===
/** The cart engine: an ordered list of `(variantId, qty)` lines and the drawer flag,
    the validating loader that rebuilds the lines from stored data, the derived
    totals, and the `add`/`remove`/`setQty`/`clear` transitions of the cart provider.
    Persisting the lines after each change is I/O and is not modelled; the state is
    the in-memory value. Variant ids resolve through `Catalog.LookupIn(cat, id)`, where the
    storefront passes `Catalog.Products()` for `cat`. */
module Cart {
  import opened Wrappers
  import opened Json
  import Catalog

  datatype CartLine = CartLine(variantId: string, qty: int)

  datatype CartState = CartState(lines: seq<CartLine>, cartOpen: bool)

  const MinQty: int := 1
  const MaxQty: int := 99

  /** `clampInt`: the floor of `value`, moved to the nearest end of `[min, max]` when it lies
      outside (and `max` whenever `min > max`, as `Math.min` is applied last). */
  function ClampInt(value: real, min: int, max: int): (r: int)
    ensures min <= max ==> min <= r <= max
    ensures min <= max ==>
      || r == value.Floor
      || (r == min && value.Floor < min)
      || (r == max && value.Floor > max)
    ensures min > max ==> r == max
  {
    var f := value.Floor;
    var lo := if min > f then min else f;
    if max < lo then max else lo
  }

  /** The clamp leaves an in-range integer alone. */
  lemma ClampIntegerInRange(n: int)
    requires MinQty <= n <= MaxQty
    ensures ClampInt(n as real, MinQty, MaxQty) == n
  {
  }

  // ---------------------------------------------------------------------------------------
  // Invariants

  /** Every quantity lies in `[1, 99]`. */
  predicate QtyInRange(lines: seq<CartLine>) {
    forall i :: 0 <= i < |lines| ==> MinQty <= lines[i].qty <= MaxQty
  }

  /** At most one line per variant id. */
  predicate UniqueIds(lines: seq<CartLine>) {
    forall i, j :: 0 <= i < j < |lines| ==> lines[i].variantId != lines[j].variantId
  }

  predicate Valid(lines: seq<CartLine>) {
    QtyInRange(lines) && UniqueIds(lines)
  }

  // ---------------------------------------------------------------------------------------
  // Loading stored lines

  /** One stored record: kept when it is an object whose `variantId` is a string that resolves
      in the catalog and whose `qty` is a number, with the quantity clamped. */
  function DecodeLine(cat: seq<Catalog.Product>, x: Json): (r: Option<CartLine>)
    ensures r.Some? <==>
      && x.JObject?
      && Field(x, "variantId").Some? && Field(x, "variantId").value.JString?
      && Field(x, "qty").Some? && Field(x, "qty").value.JNumber?
      && Catalog.LookupIn(cat, Field(x, "variantId").value.s).Some?
    ensures r.Some? ==>
      && r.value.variantId == Field(x, "variantId").value.s
      && r.value.qty == ClampInt(Field(x, "qty").value.n, MinQty, MaxQty)
  {
    if !x.JObject? then None
    else
      match (Field(x, "variantId"), Field(x, "qty"))
      case (Some(JString(v)), Some(JNumber(q))) =>
        if Catalog.LookupIn(cat, v).Some? then Some(CartLine(v, ClampInt(q, MinQty, MaxQty))) else None
      case _ => None
  }

  /** The `map(...)` then `filter(Boolean)` over the stored array: the kept records in stored order. */
  function DecodeLines(cat: seq<Catalog.Product>, xs: seq<Json>): (r: seq<CartLine>)
    ensures |r| <= |xs|
    ensures forall i :: 0 <= i < |r| ==>
      MinQty <= r[i].qty <= MaxQty && Catalog.LookupIn(cat, r[i].variantId).Some?
  {
    if xs == [] then []
    else
      match DecodeLine(cat, xs[0])
      case Some(l) => [l] + DecodeLines(cat, xs[1..])
      case None => DecodeLines(cat, xs[1..])
  }

  /** Decoding works record by record: it distributes over concatenation of the stored array. */
  lemma {:induction false} DecodeLinesAppend(cat: seq<Catalog.Product>, xs: seq<Json>, ys: seq<Json>)
    ensures DecodeLines(cat, xs + ys) == DecodeLines(cat, xs) + DecodeLines(cat, ys)
  {
    if xs == [] {
      assert xs + ys == ys;
    } else {
      assert (xs + ys)[1..] == xs[1..] + ys;
      DecodeLinesAppend(cat, xs[1..], ys);
    }
  }

  /** A line is loaded exactly when some stored record decodes to it. */
  lemma {:induction false} DecodeLinesMembership(cat: seq<Catalog.Product>, xs: seq<Json>, l: CartLine)
    ensures l in DecodeLines(cat, xs) <==> exists i :: 0 <= i < |xs| && DecodeLine(cat, xs[i]) == Some(l)
  {
    if xs != [] {
      DecodeLinesMembership(cat, xs[1..], l);
      if exists i :: 0 <= i < |xs| && DecodeLine(cat, xs[i]) == Some(l) {
        var i :| 0 <= i < |xs| && DecodeLine(cat, xs[i]) == Some(l);
        if i > 0 {
          assert xs[1..][i - 1] == xs[i];
        }
      }
      if exists i :: 0 <= i < |xs[1..]| && DecodeLine(cat, xs[1..][i]) == Some(l) {
        var i :| 0 <= i < |xs[1..]| && DecodeLine(cat, xs[1..][i]) == Some(l);
        assert xs[i + 1] == xs[1..][i];
      }
    }
  }

  /** `readStoredLines`: the raw stored string (`None` when absent) is parsed by `parse`
      (`None` when `JSON.parse` throws). Absent, empty, unparseable or non-array data loads
      as the empty cart; otherwise the valid records are kept in order. Duplicate variant ids
      are not merged. */
  function ReadStoredLines(cat: seq<Catalog.Product>, raw: Option<string>, parse: string -> Option<Json>): (r: seq<CartLine>)
    ensures raw.None? || raw == Some("") ==> r == []
    ensures raw.Some? && raw.value != "" && (parse(raw.value).None? || !parse(raw.value).value.JArray?) ==> r == []
    ensures raw.Some? && raw.value != "" && parse(raw.value).Some? && parse(raw.value).value.JArray? ==>
      r == DecodeLines(cat, parse(raw.value).value.elems)
    ensures QtyInRange(r)
  {
    if raw.None? || raw.value == "" then []
    else
      match parse(raw.value)
      case Some(JArray(xs)) => DecodeLines(cat, xs)
      case _ => []
  }

  /** A stored quantity of 150 loads as 99; a record naming an unknown variant is dropped. */
  lemma LoadClampsAndDrops()
    ensures DecodeLine(Catalog.Products(), JObject(map["variantId" := JString("v-crea-250"), "qty" := JNumber(150.0)]))
         == Some(CartLine("v-crea-250", 99))
    ensures DecodeLine(Catalog.Products(), JObject(map["variantId" := JString("v-unknown"), "qty" := JNumber(2.0)])) == None
  {
    Catalog.LookupIffListed("v-crea-250");
    Catalog.LookupIffListed("v-unknown");
  }

  /** The loader never breaks the quantity bound, but it can load two lines with the same id. */
  lemma LoaderKeepsDuplicates()
    ensures
      var rec := JObject(map["variantId" := JString("v-crea-250"), "qty" := JNumber(1.0)]);
      DecodeLines(Catalog.Products(), [rec, rec]) == [CartLine("v-crea-250", 1), CartLine("v-crea-250", 1)]
      && !UniqueIds(DecodeLines(Catalog.Products(), [rec, rec]))
  {
    var p := Catalog.CreatineMonohydrate();
    Catalog.LookupOwner(p, p.variants[0]);
    var rec := JObject(map["variantId" := JString("v-crea-250"), "qty" := JNumber(1.0)]);
    var l := CartLine("v-crea-250", 1);
    assert DecodeLine(Catalog.Products(), rec) == Some(l);
    assert [rec, rec][1..] == [rec];
    assert DecodeLines(Catalog.Products(), [rec]) == [l];
    assert DecodeLines(Catalog.Products(), [rec, rec]) == [l] + [l];
    assert [l, l][0].variantId == [l, l][1].variantId;
  }

  // ---------------------------------------------------------------------------------------
  // Derived totals

  function TotalItems(lines: seq<CartLine>): int {
    if lines == [] then 0 else lines[0].qty + TotalItems(lines[1..])
  }

  /** The contribution of one line to the subtotal: price times quantity, or nothing when the
      variant no longer resolves. */
  function LineAmount(cat: seq<Catalog.Product>, l: CartLine): int {
    match Catalog.LookupIn(cat, l.variantId)
    case Some(hit) => hit.variant.price * l.qty
    case None => 0
  }

  function Subtotal(cat: seq<Catalog.Product>, lines: seq<CartLine>): int {
    if lines == [] then 0 else LineAmount(cat, lines[0]) + Subtotal(cat, lines[1..])
  }

  lemma {:induction false} TotalItemsAppend(a: seq<CartLine>, b: seq<CartLine>)
    ensures TotalItems(a + b) == TotalItems(a) + TotalItems(b)
  {
    if a == [] {
      assert a + b == b;
    } else {
      assert (a + b)[1..] == a[1..] + b;
      TotalItemsAppend(a[1..], b);
    }
  }

  lemma {:induction false} SubtotalAppend(cat: seq<Catalog.Product>, a: seq<CartLine>, b: seq<CartLine>)
    ensures Subtotal(cat, a + b) == Subtotal(cat, a) + Subtotal(cat, b)
  {
    if a == [] {
      assert a + b == b;
    } else {
      assert (a + b)[1..] == a[1..] + b;
      SubtotalAppend(cat, a[1..], b);
    }
  }

  /** `totalItems`: the `reduce` over the lines, left to right. */
  method ComputeTotalItems(lines: seq<CartLine>) returns (sum: int)
    ensures sum == TotalItems(lines)
    ensures QtyInRange(lines) ==> |lines| * MinQty <= sum <= |lines| * MaxQty
  {
    sum := 0;
    var i := 0;
    while i < |lines|
      invariant 0 <= i <= |lines|
      invariant sum == TotalItems(lines[..i])
    {
      TotalItemsAppend(lines[..i], [lines[i]]);
      assert lines[..i + 1] == lines[..i] + [lines[i]];
      sum := sum + lines[i].qty;
      i := i + 1;
    }
    assert lines[..i] == lines;
    if QtyInRange(lines) {
      TotalItemsBounds(lines);
    }
  }

  lemma {:induction false} TotalItemsBounds(lines: seq<CartLine>)
    requires QtyInRange(lines)
    ensures |lines| * MinQty <= TotalItems(lines) <= |lines| * MaxQty
  {
    if lines != [] {
      TotalItemsBounds(lines[1..]);
    }
  }

  /** `subtotal`: the `reduce` over the lines, left to right, skipping lines that do not resolve. */
  method ComputeSubtotal(cat: seq<Catalog.Product>, lines: seq<CartLine>) returns (sum: int)
    ensures sum == Subtotal(cat, lines)
  {
    sum := 0;
    var i := 0;
    while i < |lines|
      invariant 0 <= i <= |lines|
      invariant sum == Subtotal(cat, lines[..i])
    {
      SubtotalAppend(cat, lines[..i], [lines[i]]);
      assert lines[..i + 1] == lines[..i] + [lines[i]];
      var hit := Catalog.LookupIn(cat, lines[i].variantId);
      if hit.Some? {
        sum := sum + hit.value.variant.price * lines[i].qty;
      }
      i := i + 1;
    }
    assert lines[..i] == lines;
  }

  /** The lines whose variant resolves, in cart order. */
  function ResolvedOnly(cat: seq<Catalog.Product>, lines: seq<CartLine>): (r: seq<CartLine>)
    ensures forall l :: l in r <==> l in lines && Catalog.LookupIn(cat, l.variantId).Some?
  {
    if lines == [] then []
    else if Catalog.LookupIn(cat, lines[0].variantId).Some? then [lines[0]] + ResolvedOnly(cat, lines[1..])
    else ResolvedOnly(cat, lines[1..])
  }

  /** A cart line joined with the product and variant its id resolves to. */
  datatype ResolvedLine = ResolvedLine(variantId: string, qty: int, product: Catalog.Product, variant: Catalog.Variant)

  /** The lines the checkout page and the cart drawer display: each line whose variant resolves,
      joined with its catalog entry; unresolved lines are skipped. */
  function Resolve(cat: seq<Catalog.Product>, lines: seq<CartLine>): (r: seq<ResolvedLine>)
    ensures |r| <= |lines|
    ensures forall i :: 0 <= i < |r| ==>
      Catalog.LookupIn(cat, r[i].variantId) == Some(Catalog.Hit(r[i].product, r[i].variant))
  {
    if lines == [] then []
    else
      var rest := Resolve(cat, lines[1..]);
      match Catalog.LookupIn(cat, lines[0].variantId)
      case Some(h) => [ResolvedLine(lines[0].variantId, lines[0].qty, h.product, h.variant)] + rest
      case None => rest
  }

  /** The cart line a displayed line came from. */
  function Unresolve(r: ResolvedLine): CartLine {
    CartLine(r.variantId, r.qty)
  }

  /** The displayed lines are exactly the resolving cart lines, in cart order. */
  lemma {:induction false} ResolveKeepsResolving(cat: seq<Catalog.Product>, lines: seq<CartLine>)
    ensures |Resolve(cat, lines)| == |ResolvedOnly(cat, lines)|
    ensures forall i :: 0 <= i < |Resolve(cat, lines)| ==>
      Unresolve(Resolve(cat, lines)[i]) == ResolvedOnly(cat, lines)[i]
  {
    if lines != [] {
      var rs, ls := Resolve(cat, lines[1..]), ResolvedOnly(cat, lines[1..]);
      ResolveKeepsResolving(cat, lines[1..]);
      match Catalog.LookupIn(cat, lines[0].variantId)
      case Some(h) =>
        var r0 := ResolvedLine(lines[0].variantId, lines[0].qty, h.product, h.variant);
        assert Resolve(cat, lines) == [r0] + rs;
        assert ResolvedOnly(cat, lines) == [lines[0]] + ls;
        forall i | 0 <= i < |rs| + 1 ensures Unresolve(([r0] + rs)[i]) == ([lines[0]] + ls)[i] {
          if i > 0 {
            assert ([r0] + rs)[i] == rs[i - 1];
            assert ([lines[0]] + ls)[i] == ls[i - 1];
          }
        }
      case None =>
        assert Resolve(cat, lines) == rs;
        assert ResolvedOnly(cat, lines) == ls;
    }
  }

  /** Nothing is displayed exactly when no line resolves. */
  lemma ResolveEmptyIff(cat: seq<Catalog.Product>, lines: seq<CartLine>)
    ensures Resolve(cat, lines) == [] <==> forall l :: l in lines ==> Catalog.LookupIn(cat, l.variantId).None?
  {
    ResolveKeepsResolving(cat, lines);
    var r := ResolvedOnly(cat, lines);
    if r != [] {
      assert r[0] in r;
    }
  }

  /** Lines whose variant does not resolve contribute nothing to the subtotal. */
  lemma {:induction false} SubtotalIgnoresUnresolved(cat: seq<Catalog.Product>, lines: seq<CartLine>)
    ensures Subtotal(cat, lines) == Subtotal(cat, ResolvedOnly(cat, lines))
  {
    if lines != [] {
      SubtotalIgnoresUnresolved(cat, lines[1..]);
      if Catalog.LookupIn(cat, lines[0].variantId).Some? {
        assert ([lines[0]] + ResolvedOnly(cat, lines[1..]))[1..] == ResolvedOnly(cat, lines[1..]);
      }
    }
  }

  // ---------------------------------------------------------------------------------------
  // Transitions

  /** `findIndex`: the first line with the id, if any. */
  function FindLine(lines: seq<CartLine>, variantId: string): (r: Option<nat>)
    ensures r.Some? ==> r.value < |lines| && lines[r.value].variantId == variantId
    ensures r.Some? ==> forall j :: 0 <= j < r.value ==> lines[j].variantId != variantId
    ensures r.None? ==> forall j :: 0 <= j < |lines| ==> lines[j].variantId != variantId
  {
    if lines == [] then None
    else if lines[0].variantId == variantId then Some(0)
    else match FindLine(lines[1..], variantId)
      case Some(i) => Some(i + 1)
      case None => None
  }

  /** Whether `add` acts at all: the variant resolves and is in stock. */
  predicate CanAdd(cat: seq<Catalog.Product>, variantId: string) {
    Catalog.LookupIn(cat, variantId).Some? && Catalog.LookupIn(cat, variantId).value.variant.inStock
  }

  /** `add(variantId, qty)`. */
  function Add(cat: seq<Catalog.Product>, st: CartState, variantId: string, qty: real): (r: CartState)
    ensures !CanAdd(cat, variantId) ==> r == st
    ensures CanAdd(cat, variantId) ==> r.cartOpen
    ensures CanAdd(cat, variantId) && FindLine(st.lines, variantId).None? ==>
      r.lines == st.lines + [CartLine(variantId, ClampInt(qty, MinQty, MaxQty))]
    ensures CanAdd(cat, variantId) && FindLine(st.lines, variantId).Some? ==>
      var i := FindLine(st.lines, variantId).value;
      && |r.lines| == |st.lines|
      && r.lines[i] == CartLine(variantId,
           ClampInt((st.lines[i].qty + ClampInt(qty, MinQty, MaxQty)) as real, MinQty, MaxQty))
      && forall j :: 0 <= j < |st.lines| && j != i ==> r.lines[j] == st.lines[j]
  {
    if !CanAdd(cat, variantId) then st
    else
      var addQty := ClampInt(qty, MinQty, MaxQty);
      var lines := match FindLine(st.lines, variantId)
        case None => st.lines + [CartLine(variantId, addQty)]
        case Some(i) =>
          st.lines[i := st.lines[i].(qty := ClampInt((st.lines[i].qty + addQty) as real, MinQty, MaxQty))];
      CartState(lines, true)
  }

  /** `remove(variantId)`: every line with the id is dropped, the rest kept in order. */
  function RemoveLines(lines: seq<CartLine>, variantId: string): (r: seq<CartLine>)
    ensures forall l :: l in r <==> l in lines && l.variantId != variantId
    ensures |r| <= |lines|
    ensures (forall j :: 0 <= j < |lines| ==> lines[j].variantId != variantId) ==> r == lines
  {
    if lines == [] then []
    else if lines[0].variantId == variantId then RemoveLines(lines[1..], variantId)
    else [lines[0]] + RemoveLines(lines[1..], variantId)
  }

  function Remove(st: CartState, variantId: string): (r: CartState)
    ensures r.cartOpen == st.cartOpen
    ensures forall l :: l in r.lines <==> l in st.lines && l.variantId != variantId
  {
    st.(lines := RemoveLines(st.lines, variantId))
  }

  /** `setQty(variantId, qty)`: every line with the id gets the clamped quantity; no line is
      created, removed or moved. */
  function SetQty(st: CartState, variantId: string, qty: real): (r: CartState)
    ensures r.cartOpen == st.cartOpen
    ensures |r.lines| == |st.lines|
    ensures forall j :: 0 <= j < |st.lines| ==> r.lines[j].variantId == st.lines[j].variantId
    ensures forall j :: 0 <= j < |st.lines| && st.lines[j].variantId == variantId ==>
      r.lines[j].qty == ClampInt(qty, MinQty, MaxQty)
    ensures forall j :: 0 <= j < |st.lines| && st.lines[j].variantId != variantId ==>
      r.lines[j] == st.lines[j]
  {
    var nextQty := ClampInt(qty, MinQty, MaxQty);
    var lines := seq(|st.lines|, j requires 0 <= j < |st.lines| =>
      if st.lines[j].variantId == variantId then st.lines[j].(qty := nextQty) else st.lines[j]);
    st.(lines := lines)
  }

  /** `clear()`. */
  function Clear(st: CartState): (r: CartState)
    ensures r.lines == [] && r.cartOpen == st.cartOpen
  {
    st.(lines := [])
  }

  // ---------------------------------------------------------------------------------------
  // Preservation of the invariants

  lemma AddPreservesValid(cat: seq<Catalog.Product>, st: CartState, variantId: string, qty: real)
    requires Valid(st.lines)
    ensures Valid(Add(cat, st, variantId, qty).lines)
  {
  }

  lemma {:induction false} RemoveLinesSubsequence(lines: seq<CartLine>, variantId: string)
    requires UniqueIds(lines)
    ensures UniqueIds(RemoveLines(lines, variantId))
  {
    if lines != [] {
      RemoveLinesSubsequence(lines[1..], variantId);
      var rest := RemoveLines(lines[1..], variantId);
      if lines[0].variantId != variantId {
        forall j | 0 <= j < |rest| ensures rest[j].variantId != lines[0].variantId {
          assert rest[j] in lines[1..];
        }
      }
    }
  }

  lemma RemovePreservesValid(st: CartState, variantId: string)
    requires Valid(st.lines)
    ensures Valid(Remove(st, variantId).lines)
  {
    RemoveLinesSubsequence(st.lines, variantId);
    var r := Remove(st, variantId).lines;
    forall i | 0 <= i < |r| ensures MinQty <= r[i].qty <= MaxQty {
      assert r[i] in st.lines;
    }
  }

  lemma SetQtyPreservesValid(st: CartState, variantId: string, qty: real)
    requires Valid(st.lines)
    ensures Valid(SetQty(st, variantId, qty).lines)
  {
  }

  lemma ClearPreservesValid(st: CartState)
    ensures Valid(Clear(st).lines)
  {
  }

  /** Adding 3 and then 4 of the same in-stock variant to an empty cart leaves one line of 7. */
  lemma AddMergesExample()
    ensures
      var st := Add(Catalog.Products(), Add(Catalog.Products(), CartState([], false), "v-crea-250", 3.0), "v-crea-250", 4.0);
      st.lines == [CartLine("v-crea-250", 7)] && st.cartOpen
  {
    var p := Catalog.CreatineMonohydrate();
    Catalog.LookupOwner(p, p.variants[0]);
    var s1 := Add(Catalog.Products(), CartState([], false), "v-crea-250", 3.0);
    assert s1.lines == [CartLine("v-crea-250", 3)];
  }

  /** Adding 50 and then 60 of the same in-stock variant leaves one line at the cap of 99. */
  lemma AddMergeClampsExample()
    ensures
      var st := Add(Catalog.Products(), Add(Catalog.Products(), CartState([], false), "v-crea-250", 50.0), "v-crea-250", 60.0);
      st.lines == [CartLine("v-crea-250", 99)] && st.cartOpen
  {
    var p := Catalog.CreatineMonohydrate();
    Catalog.LookupOwner(p, p.variants[0]);
    var s1 := Add(Catalog.Products(), CartState([], false), "v-crea-250", 50.0);
    assert s1.lines == [CartLine("v-crea-250", 50)];
  }

  /** Adding to a valid cart changes the item count by exactly the growth of the affected line. */
  lemma AddTotalItems(cat: seq<Catalog.Product>, st: CartState, variantId: string, qty: real)
    requires CanAdd(cat, variantId)
    ensures FindLine(st.lines, variantId).None? ==>
      TotalItems(Add(cat, st, variantId, qty).lines) == TotalItems(st.lines) + ClampInt(qty, MinQty, MaxQty)
    ensures FindLine(st.lines, variantId).Some? ==>
      var i := FindLine(st.lines, variantId).value;
      TotalItems(Add(cat, st, variantId, qty).lines)
        == TotalItems(st.lines) - st.lines[i].qty + Add(cat, st, variantId, qty).lines[i].qty
  {
    var r := Add(cat, st, variantId, qty).lines;
    match FindLine(st.lines, variantId)
    case None =>
      TotalItemsAppend(st.lines, [CartLine(variantId, ClampInt(qty, MinQty, MaxQty))]);
    case Some(i) =>
      assert st.lines == st.lines[..i] + [st.lines[i]] + st.lines[i + 1..];
      assert r == st.lines[..i] + [r[i]] + st.lines[i + 1..];
      TotalItemsAppend(st.lines[..i] + [st.lines[i]], st.lines[i + 1..]);
      TotalItemsAppend(st.lines[..i], [st.lines[i]]);
      TotalItemsAppend(st.lines[..i] + [r[i]], st.lines[i + 1..]);
      TotalItemsAppend(st.lines[..i], [r[i]]);
  }
}

=== FILE: cart_drawer.dfy ===
/** The cart drawer's line controls: the decrement and increment steppers, the per-line remove
    button and the clear button. Each acts on a displayed line, which is a cart line picked by
    its index. The drawer's own `clampInt` has the cart's definition (`Cart.ClampInt`). */
module CartDrawer {
  import Cart

  /** The minus button: a line at one unit or fewer is removed; otherwise its quantity is set to
      one less, clamped to `[1, 99]`. */
  function Decrement(st: Cart.CartState, i: nat): (r: Cart.CartState)
    requires i < |st.lines|
    ensures r.cartOpen == st.cartOpen
    ensures st.lines[i].qty <= 1 ==>
      forall l :: l in r.lines <==> l in st.lines && l.variantId != st.lines[i].variantId
    ensures st.lines[i].qty > 1 ==>
      && |r.lines| == |st.lines|
      && forall j :: 0 <= j < |st.lines| ==>
           r.lines[j] == if st.lines[j].variantId == st.lines[i].variantId
                         then st.lines[j].(qty := Lowered(st.lines[i].qty))
                         else st.lines[j]
  {
    var l := st.lines[i];
    if l.qty <= 1 then Cart.Remove(st, l.variantId)
    else Cart.SetQty(st, l.variantId, Cart.ClampInt((l.qty - 1) as real, Cart.MinQty, Cart.MaxQty) as real)
  }

  /** One unit less than `q`, but no more than 99. */
  function Lowered(q: int): int {
    if q - 1 > Cart.MaxQty then Cart.MaxQty else q - 1
  }

  /** The plus button: the quantity is set to one more, clamped to `[1, 99]`. */
  function Increment(st: Cart.CartState, i: nat): (r: Cart.CartState)
    requires i < |st.lines|
    ensures r.cartOpen == st.cartOpen
    ensures |r.lines| == |st.lines|
    ensures forall j :: 0 <= j < |st.lines| ==>
      r.lines[j] == if st.lines[j].variantId == st.lines[i].variantId
                    then st.lines[j].(qty := Raised(st.lines[i].qty))
                    else st.lines[j]
  {
    var l := st.lines[i];
    Cart.SetQty(st, l.variantId, Cart.ClampInt((l.qty + 1) as real, Cart.MinQty, Cart.MaxQty) as real)
  }

  /** One unit more than `q`, kept within `[1, 99]`. */
  function Raised(q: int): int {
    if q + 1 > Cart.MaxQty then Cart.MaxQty else if q + 1 < Cart.MinQty then Cart.MinQty else q + 1
  }

  /** On a valid cart the minus button removes a line at one unit and otherwise lowers it by
      exactly one, leaving every other line as it was. */
  lemma DecrementSteps(st: Cart.CartState, i: nat)
    requires Cart.Valid(st.lines) && i < |st.lines|
    ensures var r := Decrement(st, i);
      && (st.lines[i].qty == 1 ==> |r.lines| == |st.lines| - 1 && st.lines[i] !in r.lines)
      && (st.lines[i].qty > 1 ==>
            |r.lines| == |st.lines| && r.lines[i] == st.lines[i].(qty := st.lines[i].qty - 1)
            && forall j :: 0 <= j < |st.lines| && j != i ==> r.lines[j] == st.lines[j])
  {
    var l := st.lines[i];
    if l.qty == 1 {
      RemoveDropsOne(st, i);
    } else {
      Cart.ClampIntegerInRange(l.qty - 1);
    }
  }

  /** On a valid cart the plus button raises a line by one up to 99, so a line at 99 stays there,
      leaving every other line as it was. */
  lemma IncrementSteps(st: Cart.CartState, i: nat)
    requires Cart.Valid(st.lines) && i < |st.lines|
    ensures var r := Increment(st, i);
      && r.lines[i] == st.lines[i].(qty := if st.lines[i].qty + 1 > Cart.MaxQty then Cart.MaxQty else st.lines[i].qty + 1)
      && forall j :: 0 <= j < |st.lines| && j != i ==> r.lines[j] == st.lines[j]
  {
    var l := st.lines[i];
    if l.qty + 1 <= Cart.MaxQty {
      Cart.ClampIntegerInRange(l.qty + 1);
    }
  }

  /** The remove button drops exactly the line it belongs to; the others stay in order. */
  lemma RemoveDropsOne(st: Cart.CartState, i: nat)
    requires Cart.UniqueIds(st.lines) && i < |st.lines|
    ensures Cart.Remove(st, st.lines[i].variantId).lines == st.lines[..i] + st.lines[i + 1..]
  {
    var id := st.lines[i].variantId;
    var before, after := st.lines[..i], st.lines[i + 1..];
    forall j | 0 <= j < |before| ensures before[j].variantId != id {
      assert before[j] == st.lines[j];
    }
    forall j | 0 <= j < |after| ensures after[j].variantId != id {
      assert after[j] == st.lines[i + 1 + j];
    }
    assert st.lines == before + ([st.lines[i]] + after);
    RemoveLinesAppend(before, [st.lines[i]] + after, id);
    RemoveLinesAppend([st.lines[i]], after, id);
    assert Cart.RemoveLines([st.lines[i]], id) == [];
  }

  lemma {:induction false} RemoveLinesAppend(a: seq<Cart.CartLine>, b: seq<Cart.CartLine>, id: string)
    ensures Cart.RemoveLines(a + b, id) == Cart.RemoveLines(a, id) + Cart.RemoveLines(b, id)
  {
    if a == [] {
      assert a + b == b;
    } else {
      assert (a + b)[0] == a[0];
      assert (a + b)[1..] == a[1..] + b;
      RemoveLinesAppend(a[1..], b, id);
    }
  }

  /** The clear button leaves no lines. */
  function ClearAll(st: Cart.CartState): (r: Cart.CartState)
    ensures r.lines == [] && r.cartOpen == st.cartOpen
  {
    Cart.Clear(st)
  }
}

=== FILE: catalog.dfy ===
/** The static product table of the storefront and the index from variant id to
    its owning product and variant (`catalogLookup.byVariantId`). Everything else in
    the model resolves variant ids through `Lookup`. */
module Catalog {
  import opened Wrappers

  datatype Category = Creatina | Proteina | PreEntreno | Aminoacidos | Ganador | Accesorios

  /** The display name of a category, which is also what search matches against. */
  function CategoryName(c: Category): string {
    match c
    case Creatina => "Creatina"
    case Proteina => "Proteína"
    case PreEntreno => "Pre-entreno"
    case Aminoacidos => "Aminoácidos"
    case Ganador => "Ganador"
    case Accesorios => "Accesorios"
  }

  /** The six categories of the union type; every category is one of them and their names differ. */
  function AllCategories(): (r: set<Category>)
    ensures |r| == 6
    ensures forall c, d: Category :: c != d ==> CategoryName(c) != CategoryName(d)
  {
    var r := {Creatina, Proteina, PreEntreno, Aminoacidos, Ganador, Accesorios};
    assert |r - {Accesorios}| == 5;
    r
  }

  /** Every value of the union type is one of the six listed categories. */
  lemma CategoryListed(c: Category)
    ensures c in AllCategories()
  {
  }

  datatype Variant = Variant(
    id: string,
    labelText: string,
    size: string,
    flavor: Option<string>,
    price: int,
    compareAt: Option<int>,
    inStock: bool)

  datatype Product = Product(
    id: string,
    name: string,
    brand: string,
    category: Category,
    variants: seq<Variant>)

  /** A resolved variant: the value stored in `byVariantId`. */
  datatype Hit = Hit(product: Product, variant: Variant)

  function Products(): seq<Product> {
    [CreatineMonohydrate(), WheyIsolate(), PreWorkout(), Bcaa(), MassGainer()]
  }

  function CreatineMonohydrate(): Product {
    Product("p-crea-01", "Creatina Monohidratada Micronizada", "MUÑEK LABS", Creatina,
      [
        Variant("v-crea-250", "250 g • Sin sabor", "250 g", Some("Sin sabor"), 349, Some(399), true),
        Variant("v-crea-500", "500 g • Sin sabor", "500 g", Some("Sin sabor"), 549, Some(649), true),
        Variant("v-crea-1k", "1 kg • Sin sabor", "1 kg", Some("Sin sabor"), 899, Some(999), true)
      ])
  }

  function WheyIsolate(): Product {
    Product("p-whey-01", "Whey Protein Isolate 90", "MUÑEK LABS", Proteina,
      [
        Variant("v-whey-1lb-van", "1 lb • Vainilla", "1 lb", Some("Vainilla"), 699, None, true),
        Variant("v-whey-2lb-choc", "2 lb • Chocolate", "2 lb", Some("Chocolate"), 999, Some(1099), true),
        Variant("v-whey-5lb-fresa", "5 lb • Fresa", "5 lb", Some("Fresa"), 1999, Some(2199), true)
      ])
  }

  function PreWorkout(): Product {
    Product("p-pre-01", "Pre-Entreno Clean Focus", "MUÑEK LABS", PreEntreno,
      [
        Variant("v-pre-20-serv", "20 servicios • Sandía", "20 servicios", Some("Sandía"), 499, None, true),
        Variant("v-pre-30-serv", "30 servicios • Mango", "30 servicios", Some("Mango"), 649, None, true),
        Variant("v-pre-30-serv-u", "30 servicios • Sin sabor", "30 servicios", Some("Sin sabor"), 629, None, false)
      ])
  }

  function Bcaa(): Product {
    Product("p-bcaa-01", "BCAA 2:1:1 + Electrolitos", "MUÑEK LABS", Aminoacidos,
      [
        Variant("v-bcaa-30", "30 servicios • Limón", "30 servicios", Some("Limón"), 449, None, true),
        Variant("v-bcaa-30-frutos", "30 servicios • Frutos rojos", "30 servicios", Some("Frutos rojos"), 449, None, true)
      ])
  }

  function MassGainer(): Product {
    Product("p-mass-01", "Mass Gainer Balance", "MUÑEK LABS", Ganador,
      [
        Variant("v-mass-3lb", "3 lb • Vainilla", "3 lb", Some("Vainilla"), 899, None, true),
        Variant("v-mass-6lb", "6 lb • Chocolate", "6 lb", Some("Chocolate"), 1499, Some(1699), true)
      ])
  }

  /** The `(product, variant)` pairs in catalog order: the `flatMap` that feeds the index. */
  function Entries(ps: seq<Product>): (es: seq<Hit>)
    ensures forall k :: 0 <= k < |es| ==> es[k].variant in es[k].product.variants && es[k].product in ps
  {
    if ps == [] then []
    else
      var p := ps[0];
      seq(|p.variants|, j requires 0 <= j < |p.variants| => Hit(p, p.variants[j])) + Entries(ps[1..])
  }

  /** `Object.fromEntries`: entries are written in order, so a later entry for the same id wins. */
  function BuildIndex(es: seq<Hit>): (m: map<string, Hit>)
    ensures m.Keys == set k | 0 <= k < |es| :: es[k].variant.id
    ensures forall id :: id in m ==> m[id] in es && m[id].variant.id == id
  {
    if es == [] then map[] else BuildIndex(es[..|es| - 1])[es[|es| - 1].variant.id := es[|es| - 1]]
  }

  /** No two entries share a variant id. */
  predicate DistinctIds(es: seq<Hit>) {
    forall i, j :: 0 <= i < j < |es| ==> es[i].variant.id != es[j].variant.id
  }

  /** `catalogLookup.byVariantId`. */
  function ByVariantId(): map<string, Hit> {
    BuildIndex(Entries(Products()))
  }

  /** The first variant of a list with the given id. */
  function FindVariant(vs: seq<Variant>, id: string): Option<Variant> {
    if vs == [] then None else if vs[0].id == id then Some(vs[0]) else FindVariant(vs[1..], id)
  }

  /** A scan of the products in order, stopping at the first one that has a variant with the id:
      the search `parseActions` performs, and the value `byVariantId` holds (see `LookupIsIndex`). */
  function LookupIn(ps: seq<Product>, id: string): Option<Hit> {
    if ps == [] then None
    else match FindVariant(ps[0].variants, id)
      case Some(v) => Some(Hit(ps[0], v))
      case None => LookupIn(ps[1..], id)
  }

  /** `catalogLookup.byVariantId[id]`, with a missing key as `None`. */
  function Lookup(id: string): Option<Hit> {
    LookupIn(Products(), id)
  }

  /** A pair is in the flattened entries exactly when the variant belongs to a product of the list. */
  lemma {:induction false} EntriesMembership(ps: seq<Product>, p: Product, v: Variant)
    ensures Hit(p, v) in Entries(ps) <==> p in ps && v in p.variants
  {
    if ps != [] {
      var q := ps[0];
      var head := seq(|q.variants|, j requires 0 <= j < |q.variants| => Hit(q, q.variants[j]));
      EntriesMembership(ps[1..], p, v);
      assert Entries(ps) == head + Entries(ps[1..]);
      if p == q && v in q.variants {
        var j :| 0 <= j < |q.variants| && q.variants[j] == v;
        assert head[j] == Hit(p, v);
      }
      assert p in ps <==> p == q || p in ps[1..];
    }
  }

  /** With distinct ids, the index maps every entry's id to that very entry: nothing is overwritten. */
  lemma {:induction false} BuildIndexSound(es: seq<Hit>)
    requires DistinctIds(es)
    ensures forall k :: 0 <= k < |es| ==> BuildIndex(es)[es[k].variant.id] == es[k]
  {
    if es != [] {
      var init := es[..|es| - 1];
      assert DistinctIds(init);
      BuildIndexSound(init);
      forall k | 0 <= k < |es| ensures BuildIndex(es)[es[k].variant.id] == es[k] {
        if k < |es| - 1 {
          assert init[k] == es[k];
          assert es[k].variant.id != es[|es| - 1].variant.id;
        }
      }
    }
  }

  /** The variant ids of a product list, flattened in order. */
  function IdsOf(ps: seq<Product>): seq<string> {
    if ps == [] then [] else VariantIdsOf(ps[0].variants) + IdsOf(ps[1..])
  }

  /** The flattened id list is the id column of the flattened entries. */
  lemma {:induction false} IdsOfEntries(ps: seq<Product>)
    ensures |IdsOf(ps)| == |Entries(ps)|
    ensures forall k :: 0 <= k < |IdsOf(ps)| ==> IdsOf(ps)[k] == Entries(ps)[k].variant.id
  {
    if ps != [] {
      IdsOfEntries(ps[1..]);
      var vs := ps[0].variants;
      assert Entries(ps) == seq(|vs|, j requires 0 <= j < |vs| => Hit(ps[0], vs[j])) + Entries(ps[1..]);
    }
  }

  function VariantIdsOf(vs: seq<Variant>): (ids: seq<string>)
    ensures |ids| == |vs| && forall j :: 0 <= j < |vs| ==> ids[j] == vs[j].id
  {
    if vs == [] then [] else [vs[0].id] + VariantIdsOf(vs[1..])
  }

  /** The catalog's variant ids, written out. */
  function CatalogIds(): seq<string> {
    [
      "v-crea-250", "v-crea-500", "v-crea-1k",
      "v-whey-1lb-van", "v-whey-2lb-choc", "v-whey-5lb-fresa",
      "v-pre-20-serv", "v-pre-30-serv", "v-pre-30-serv-u",
      "v-bcaa-30", "v-bcaa-30-frutos",
      "v-mass-3lb", "v-mass-6lb"
    ]
  }

  lemma ProductIds()
    ensures VariantIdsOf(CreatineMonohydrate().variants) == ["v-crea-250", "v-crea-500", "v-crea-1k"]
    ensures VariantIdsOf(WheyIsolate().variants) == ["v-whey-1lb-van", "v-whey-2lb-choc", "v-whey-5lb-fresa"]
    ensures VariantIdsOf(PreWorkout().variants) == ["v-pre-20-serv", "v-pre-30-serv", "v-pre-30-serv-u"]
    ensures VariantIdsOf(Bcaa().variants) == ["v-bcaa-30", "v-bcaa-30-frutos"]
    ensures VariantIdsOf(MassGainer().variants) == ["v-mass-3lb", "v-mass-6lb"]
  {
  }

  lemma CatalogIdsListed()
    ensures IdsOf(Products()) == CatalogIds()
  {
    ProductIds();
    var P := Products();
    assert P[1..] == [WheyIsolate(), PreWorkout(), Bcaa(), MassGainer()];
    assert P[2..] == [PreWorkout(), Bcaa(), MassGainer()];
    assert P[3..] == [Bcaa(), MassGainer()];
    assert P[4..] == [MassGainer()];
    assert IdsOf(P[4..]) == ["v-mass-3lb", "v-mass-6lb"];
    assert IdsOf(P[3..]) == ["v-bcaa-30", "v-bcaa-30-frutos"] + IdsOf(P[4..]);
    assert IdsOf(P[2..]) == ["v-pre-20-serv", "v-pre-30-serv", "v-pre-30-serv-u"] + IdsOf(P[3..]);
    assert IdsOf(P[1..]) == ["v-whey-1lb-van", "v-whey-2lb-choc", "v-whey-5lb-fresa"] + IdsOf(P[2..]);
    assert IdsOf(P) == ["v-crea-250", "v-crea-500", "v-crea-1k"] + IdsOf(P[1..]);
  }

  lemma CatalogIdsPairwiseDistinct()
    ensures forall i, j :: 0 <= i < j < |CatalogIds()| ==> CatalogIds()[i] != CatalogIds()[j]
  {
  }

  /** Variant ids are unique across the whole catalog, so building the index never overwrites an entry. */
  lemma CatalogIdsDistinct()
    ensures DistinctIds(Entries(Products()))
  {
    CatalogIdsListed();
    CatalogIdsPairwiseDistinct();
    IdsOfEntries(Products());
  }

  /** Whatever the scan finds is a variant of a listed product carrying the requested id. */
  lemma {:induction false} LookupInSound(ps: seq<Product>, id: string)
    ensures LookupIn(ps, id).Some? ==>
      var h := LookupIn(ps, id).value;
      h.product in ps && h.variant in h.product.variants && h.variant.id == id
  {
    if ps != [] {
      LookupInSound(ps[1..], id);
      FindVariantSound(ps[0].variants, id);
    }
  }

  lemma {:induction false} FindVariantSound(vs: seq<Variant>, id: string)
    ensures FindVariant(vs, id).Some? ==> FindVariant(vs, id).value in vs && FindVariant(vs, id).value.id == id
    ensures (exists v :: v in vs && v.id == id) ==> FindVariant(vs, id).Some?
  {
    if vs != [] {
      FindVariantSound(vs[1..], id);
      if exists v :: v in vs && v.id == id {
        var v :| v in vs && v.id == id;
        if vs[0].id != id {
          assert v in vs[1..];
        }
      }
    }
  }

  /** The scan finds something whenever some listed product has a variant with the id. */
  lemma {:induction false} LookupInComplete(ps: seq<Product>, p: Product, v: Variant)
    requires p in ps && v in p.variants
    ensures LookupIn(ps, v.id).Some?
  {
    FindVariantSound(ps[0].variants, v.id);
    if FindVariant(ps[0].variants, v.id).None? {
      assert p in ps[1..];
      LookupInComplete(ps[1..], p, v);
    }
  }

  /** With distinct ids, the scan finds each variant under its owner. */
  lemma LookupInOwner(ps: seq<Product>, p: Product, v: Variant)
    requires DistinctIds(Entries(ps)) && p in ps && v in p.variants
    ensures LookupIn(ps, v.id) == Some(Hit(p, v))
  {
    LookupInComplete(ps, p, v);
    LookupInSound(ps, v.id);
    var h := LookupIn(ps, v.id).value;
    var es := Entries(ps);
    EntriesMembership(ps, p, v);
    EntriesMembership(ps, h.product, h.variant);
    var i :| 0 <= i < |es| && es[i] == Hit(p, v);
    var j :| 0 <= j < |es| && es[j] == h;
    assert i == j;
  }

  /** With distinct ids, the scan agrees with the index built by `Object.fromEntries`. */
  lemma LookupInIsIndex(ps: seq<Product>, id: string)
    requires DistinctIds(Entries(ps))
    ensures LookupIn(ps, id) == (if id in BuildIndex(Entries(ps)) then Some(BuildIndex(Entries(ps))[id]) else None)
  {
    var es := Entries(ps);
    BuildIndexSound(es);
    LookupInSound(ps, id);
    if id in BuildIndex(es) {
      var k :| 0 <= k < |es| && es[k].variant.id == id;
      EntriesMembership(ps, es[k].product, es[k].variant);
      LookupInOwner(ps, es[k].product, es[k].variant);
    }
    if LookupIn(ps, id).Some? {
      var h := LookupIn(ps, id).value;
      EntriesMembership(ps, h.product, h.variant);
      var k :| 0 <= k < |es| && es[k] == h;
      assert es[k].variant.id == id;
    }
  }

  /** An id resolves in a product list exactly when it is one of the list's variant ids. */
  lemma LookupInIffIds(ps: seq<Product>, id: string)
    ensures LookupIn(ps, id).Some? <==> id in IdsOf(ps)
  {
    var es := Entries(ps);
    var ids := IdsOf(ps);
    IdsOfEntries(ps);
    if LookupIn(ps, id).Some? {
      LookupInSound(ps, id);
      var h := LookupIn(ps, id).value;
      EntriesMembership(ps, h.product, h.variant);
      var k :| 0 <= k < |es| && es[k] == h;
      assert ids[k] == id;
    }
    if id in ids {
      var k :| 0 <= k < |ids| && ids[k] == id;
      EntriesMembership(ps, es[k].product, es[k].variant);
      LookupInComplete(ps, es[k].product, es[k].variant);
    }
  }

  /** For every product p and every variant v of p, `byVariantId[v.id]` is `(p, v)`. */
  lemma LookupOwner(p: Product, v: Variant)
    requires p in Products() && v in p.variants
    ensures Lookup(v.id) == Some(Hit(p, v))
  {
    CatalogIdsDistinct();
    LookupInOwner(Products(), p, v);
  }

  /** An id resolves exactly when it is the id of some variant of some catalog product,
      and what it resolves to is that product and variant. */
  lemma LookupIff(id: string)
    ensures Lookup(id).Some? <==> exists p, v :: p in Products() && v in p.variants && v.id == id
    ensures Lookup(id).Some? ==>
      var h := Lookup(id).value;
      h.product in Products() && h.variant in h.product.variants && h.variant.id == id
  {
    LookupInSound(Products(), id);
    if exists p, v :: p in Products() && v in p.variants && v.id == id {
      var p, v :| p in Products() && v in p.variants && v.id == id;
      LookupInComplete(Products(), p, v);
    }
  }

  /** The scan agrees with the `byVariantId` record built by `Object.fromEntries`. */
  lemma LookupIsIndex(id: string)
    ensures Lookup(id) == (if id in ByVariantId() then Some(ByVariantId()[id]) else None)
  {
    CatalogIdsDistinct();
    LookupInIsIndex(Products(), id);
  }

  /** An id resolves exactly when it is one of the listed catalog ids. */
  lemma LookupIffListed(id: string)
    ensures Lookup(id).Some? <==> id in CatalogIds()
  {
    LookupInIffIds(Products(), id);
    CatalogIdsListed();
  }

  /** Every product has a variant; every price is positive; a compare-at price, when present,
      is strictly above the price. */
  predicate WellFormed(p: Product) {
    && |p.variants| >= 1
    && forall v :: v in p.variants ==> v.price > 0 && (v.compareAt.Some? ==> v.compareAt.value > v.price)
  }

  lemma CatalogWellFormed()
    ensures forall p :: p in Products() ==> WellFormed(p)
  {
    assert WellFormed(CreatineMonohydrate());
    assert WellFormed(WheyIsolate());
    assert WellFormed(PreWorkout());
    assert WellFormed(Bcaa());
    assert WellFormed(MassGainer());
  }
}

=== FILE: checkout_page.dfy ===
/** The checkout page's derived values: the displayed lines, the shipping charge and the total,
    and the choice between the empty-cart view and the order form. The payment redirects and
    the chat message built on submit are side effects and are not modelled. */
module CheckoutPage {
  import Catalog
  import Cart
  import Orders

  /** Orders reaching this subtotal ship free. */
  const FreeShippingThreshold: int := 999
  /** The flat shipping charge the checkout page shows below the threshold. */
  const ShippingCost: int := 150

  /** The money summary shown beside the form. */
  datatype Summary = Summary(subtotal: int, shipping: int, total: int)

  function Shipping(subtotal: int): (r: int)
    ensures r == 0 <==> subtotal >= FreeShippingThreshold
    ensures r == ShippingCost <==> subtotal < FreeShippingThreshold
  {
    if subtotal >= FreeShippingThreshold then 0 else ShippingCost
  }

  /** The subtotal is the cart's, shipping is free from the threshold on and flat below it, and
      the total adds the two. */
  function Summarize(cat: seq<Catalog.Product>, lines: seq<Cart.CartLine>): (r: Summary)
    ensures r.subtotal == Cart.Subtotal(cat, lines)
    ensures r.shipping == 0 <==> r.subtotal >= FreeShippingThreshold
    ensures r.shipping == ShippingCost <==> r.subtotal < FreeShippingThreshold
    ensures r.total == r.subtotal + r.shipping
  {
    var subtotal := Cart.Subtotal(cat, lines);
    Summary(subtotal, Shipping(subtotal), subtotal + Shipping(subtotal))
  }

  datatype View = EmptyCart | Form(lines: seq<Cart.ResolvedLine>, summary: Summary)

  /** The page: the empty-cart view when no line resolves, else the form with the resolved lines. */
  function Render(cat: seq<Catalog.Product>, lines: seq<Cart.CartLine>): (r: View)
    ensures r.EmptyCart? <==> forall l :: l in lines ==> Catalog.LookupIn(cat, l.variantId).None?
    ensures r.Form? ==> r.lines == Cart.Resolve(cat, lines) && r.summary == Summarize(cat, lines)
  {
    Cart.ResolveEmptyIff(cat, lines);
    var shown := Cart.Resolve(cat, lines);
    if |shown| == 0 then EmptyCart else Form(shown, Summarize(cat, lines))
  }

  /** The checkout page and the order store agree on when shipping is free but not on its price:
      below the threshold the page charges 150 while `createOrder` charges 99. */
  lemma ShippingDisagreesWithOrders(subtotal: int)
    ensures (Shipping(subtotal) == 0) == (Orders.ShippingFor(subtotal) == 0)
    ensures subtotal < FreeShippingThreshold ==> Shipping(subtotal) - Orders.ShippingFor(subtotal) == 51
  {
  }

  /** A cart of only resolving lines is shown in full: every line appears, in order. */
  lemma FormShowsEveryResolvingLine(cat: seq<Catalog.Product>, lines: seq<Cart.CartLine>)
    requires lines != [] && forall l :: l in lines ==> Catalog.LookupIn(cat, l.variantId).Some?
    ensures Render(cat, lines).Form?
    ensures |Render(cat, lines).lines| == |lines|
    ensures forall i :: 0 <= i < |lines| ==> Cart.Unresolve(Render(cat, lines).lines[i]) == lines[i]
  {
    Cart.ResolveKeepsResolving(cat, lines);
    AllResolvingKept(cat, lines);
    assert lines[0] in lines;
  }

  /** Filtering a list whose lines all resolve keeps it whole. */
  lemma {:induction false} AllResolvingKept(cat: seq<Catalog.Product>, lines: seq<Cart.CartLine>)
    requires forall l :: l in lines ==> Catalog.LookupIn(cat, l.variantId).Some?
    ensures Cart.ResolvedOnly(cat, lines) == lines
  {
    if lines != [] {
      assert lines[0] in lines;
      assert forall l :: l in lines[1..] ==> l in lines;
      AllResolvingKept(cat, lines[1..]);
      assert [lines[0]] + lines[1..] == lines;
    }
  }
}

=== FILE: json.dfy ===
/** The shape of a value `JSON.parse` can produce. Parsing itself is not modelled:
    callers take a `parse: string -> Option<Json>` argument, with `None` standing for
    a thrown `SyntaxError`. */
module Json {
  import opened Wrappers

  datatype Json =
    | JNull
    | JBool(b: bool)
    | JNumber(n: real)
    | JString(s: string)
    | JArray(elems: seq<Json>)
    | JObject(fields: map<string, Json>)

  /** Property access `x.key` on a parsed value: only objects have own fields. */
  function Field(x: Json, key: string): (r: Option<Json>)
    ensures r.Some? <==> x.JObject? && key in x.fields
  {
    if x.JObject? && key in x.fields then Some(x.fields[key]) else None
  }

  /** JavaScript truthiness of a parsed value (`!!x`). */
  predicate Truthy(x: Json) {
    match x
    case JNull => false
    case JBool(b) => b
    case JNumber(n) => n != 0.0
    case JString(s) => s != ""
    case JArray(_) => true
    case JObject(_) => true
  }
}

=== FILE: orders.dfy ===
/** The mock order store: a list of orders kept under one storage key. Reading, saving,
    creating, filtering by user and changing the status of an order, plus the status labels
    and badge colours. Storage is a parameter (`raw` is the stored text, `decode` is
    `JSON.parse` followed by the date revival), and `now` stands for the clock reading. */
module Orders {
  import opened Wrappers
  import Text
  import Auth

  datatype OrderStatus = Pending | Confirmed | Shipped | Delivered | Cancelled

  datatype OrderItem = OrderItem(
    productId: string,
    variantId: string,
    productName: string,
    variantLabel: string,
    price: int,
    quantity: int,
    image: string)

  datatype Order = Order(
    id: string,
    userId: string,
    userName: string,
    userEmail: string,
    items: seq<OrderItem>,
    subtotal: int,
    shipping: int,
    total: int,
    status: OrderStatus,
    shippingAddress: string,
    phone: string,
    notes: Option<string>,
    createdAt: int,
    updatedAt: int)

  /** Orders reaching this subtotal ship free. */
  const FreeShippingFrom: int := 999
  /** The shipping charged below that threshold. */
  const ShippingFee: int := 99

  /** `getOrders`: absent, empty or unreadable storage reads as no orders. */
  function GetOrders(raw: Option<string>, decode: string -> Option<seq<Order>>): (r: seq<Order>)
    ensures raw.None? || raw == Some("") ==> r == []
    ensures raw.Some? && raw.value != "" ==> r == decode(raw.value).GetOr([])
  {
    if raw.None? || raw.value == "" then [] else decode(raw.value).GetOr([])
  }

  /** `getOrdersByUser`: the orders of one user, in stored order. */
  function OrdersOf(orders: seq<Order>, userId: string): (r: seq<Order>)
    ensures |r| <= |orders|
    ensures forall o :: o in r <==> o in orders && o.userId == userId
  {
    if orders == [] then []
    else
      var rest := OrdersOf(orders[1..], userId);
      assert forall o :: o in orders <==> o == orders[0] || o in orders[1..];
      if orders[0].userId == userId then [orders[0]] + rest else rest
  }

  /** Filtering by user distributes over concatenation, so it keeps the relative order of orders. */
  lemma {:induction false} OrdersOfAppend(a: seq<Order>, b: seq<Order>, userId: string)
    ensures OrdersOf(a + b, userId) == OrdersOf(a, userId) + OrdersOf(b, userId)
  {
    if a == [] {
      assert a + b == b;
    } else {
      assert (a + b)[1..] == a[1..] + b;
      OrdersOfAppend(a[1..], b, userId);
    }
  }

  /** The first stored order with the given id. */
  function FindOrder(orders: seq<Order>, id: string): (r: Option<nat>)
    ensures r.Some? ==> r.value < |orders| && orders[r.value].id == id
    ensures r.Some? ==> forall j :: 0 <= j < r.value ==> orders[j].id != id
    ensures r.None? <==> forall j :: 0 <= j < |orders| ==> orders[j].id != id
  {
    if orders == [] then None
    else if orders[0].id == id then Some(0)
    else match FindOrder(orders[1..], id)
      case Some(i) => Some(i + 1)
      case None => None
  }

  /** `saveOrder`: replaces the first stored order with the same id, or appends. */
  function SaveOrder(orders: seq<Order>, order: Order): (r: seq<Order>)
    ensures order in r
    ensures FindOrder(orders, order.id).None? ==> r == orders + [order]
    ensures FindOrder(orders, order.id).Some? ==>
      var i := FindOrder(orders, order.id).value;
      |r| == |orders| && r[i] == order && forall j :: 0 <= j < |orders| && j != i ==> r[j] == orders[j]
  {
    match FindOrder(orders, order.id)
    case Some(i) =>
      var r := orders[i := order];
      assert r[i] == order;
      r
    case None =>
      var r := orders + [order];
      assert r[|orders|] == order;
      r
  }

  /** Saving the same order twice stores it once. */
  lemma SaveOrderIdempotent(orders: seq<Order>, order: Order)
    ensures SaveOrder(SaveOrder(orders, order), order) == SaveOrder(orders, order)
  {
    var once := SaveOrder(orders, order);
    match FindOrder(orders, order.id)
    case Some(i) =>
      assert FindOrder(once, order.id) == Some(i);
    case None =>
      assert FindOrder(once, order.id) == Some(|orders|);
  }

  /** `items.reduce((sum, item) => sum + item.price * item.quantity, 0)`. */
  function ItemsSubtotal(items: seq<OrderItem>): int
  {
    if items == [] then 0
    else ItemsSubtotal(items[..|items| - 1]) + items[|items| - 1].price * items[|items| - 1].quantity
  }

  /** The subtotal of two lists of items together is the sum of their subtotals. */
  lemma {:induction false} ItemsSubtotalAppend(items: seq<OrderItem>, more: seq<OrderItem>)
    ensures ItemsSubtotal(items + more) == ItemsSubtotal(items) + ItemsSubtotal(more)
    decreases |more|
  {
    if more == [] {
      assert items + more == items;
    } else {
      var init := more[..|more| - 1];
      assert (items + more)[..|items + more| - 1] == items + init;
      ItemsSubtotalAppend(items, init);
    }
  }

  /** The shipping rule of `createOrder`. */
  function ShippingFor(subtotal: int): (r: int)
    ensures r == 0 <==> subtotal >= FreeShippingFrom
    ensures r == ShippingFee <==> subtotal < FreeShippingFrom
  {
    if subtotal >= FreeShippingFrom then 0 else ShippingFee
  }

  /** The id `createOrder` gives an order: `ORD-` and the clock reading. */
  function OrderId(now: nat): (id: string)
    ensures |id| > 4 && id[..4] == "ORD-"
  {
    "ORD-" + Text.Decimal(now)
  }

  /** An order whose total is its subtotal plus its shipping. */
  predicate TotalsAgree(o: Order) {
    o.total == o.subtotal + o.shipping
  }

  predicate AllTotalsAgree(orders: seq<Order>) {
    forall j :: 0 <= j < |orders| ==> TotalsAgree(orders[j])
  }

  datatype Created = Created(order: Order, orders: seq<Order>)

  /** `createOrder`: a pending order for the user, priced from its items, saved in the store. */
  function CreateOrder(orders: seq<Order>, user: Auth.User, items: seq<OrderItem>, shippingAddress: string,
                       phone: string, notes: Option<string>, now: nat): (r: Created)
    ensures r.order.id == OrderId(now) && r.order.status == Pending
    ensures r.order.userId == user.id && r.order.userName == user.name && r.order.userEmail == user.email
    ensures r.order.items == items && r.order.subtotal == ItemsSubtotal(items)
    ensures r.order.shipping == ShippingFor(r.order.subtotal) && TotalsAgree(r.order)
    ensures r.order.createdAt == now && r.order.updatedAt == now
    ensures r.orders == SaveOrder(orders, r.order)
  {
    var subtotal := ItemsSubtotal(items);
    var shipping := ShippingFor(subtotal);
    var order := Order(OrderId(now), user.id, user.name, user.email, items, subtotal, shipping,
                       subtotal + shipping, Pending, shippingAddress, phone, notes, now, now);
    Created(order, SaveOrder(orders, order))
  }

  /** Two orders created at the same clock reading share an id, so the second replaces the first
      in the store. */
  lemma SameInstantOrdersCollide(orders: seq<Order>, user: Auth.User, a: seq<OrderItem>, b: seq<OrderItem>,
                                 address: string, phone: string, now: nat)
    requires FindOrder(orders, OrderId(now)).None?
    ensures
      var first := CreateOrder(orders, user, a, address, phone, None, now);
      var second := CreateOrder(first.orders, user, b, address, phone, None, now);
      second.orders == orders + [second.order]
  {
    var first := CreateOrder(orders, user, a, address, phone, None, now);
    assert FindOrder(first.orders, OrderId(now)) == Some(|orders|);
  }

  datatype Updated = Updated(result: Option<Order>, orders: seq<Order>)

  /** `updateOrderStatus`: the first order with the id gets the new status and update time and is
      saved back in place; an unknown id changes nothing and answers null. */
  function UpdateOrderStatus(orders: seq<Order>, id: string, status: OrderStatus, now: int): (r: Updated)
    ensures FindOrder(orders, id).None? <==> r.result.None?
    ensures r.result.None? ==> r.orders == orders
    ensures r.result.Some? ==>
      var i := FindOrder(orders, id).value;
      && r.result.value == orders[i].(status := status, updatedAt := now)
      && r.orders == orders[i := r.result.value]
  {
    match FindOrder(orders, id)
    case None => Updated(None, orders)
    case Some(i) =>
      var o := orders[i].(status := status, updatedAt := now);
      assert FindOrder(orders, o.id) == Some(i);
      Updated(Some(o), SaveOrder(orders, o))
  }

  /** Changing a status touches nothing but the status and the update time: the money, the items and
      the customer of every order are kept. */
  lemma UpdateOrderStatusKeepsOrders(orders: seq<Order>, id: string, status: OrderStatus, now: int)
    ensures var r := UpdateOrderStatus(orders, id, status, now).orders;
      && |r| == |orders|
      && forall j :: 0 <= j < |orders| ==>
           r[j] == orders[j] || r[j] == orders[j].(status := status, updatedAt := now)
  {
  }

  /** Creating orders and changing their status keep every stored total equal to subtotal plus
      shipping. */
  lemma TotalsAgreePreserved(orders: seq<Order>, user: Auth.User, items: seq<OrderItem>, address: string,
                             phone: string, notes: Option<string>, now: nat, id: string, status: OrderStatus)
    requires AllTotalsAgree(orders)
    ensures AllTotalsAgree(CreateOrder(orders, user, items, address, phone, notes, now).orders)
    ensures AllTotalsAgree(UpdateOrderStatus(orders, id, status, now).orders)
  {
    var c := CreateOrder(orders, user, items, address, phone, notes, now);
    assert forall j :: 0 <= j < |c.orders| ==> c.orders[j] == c.order || c.orders[j] == orders[j];
    UpdateOrderStatusKeepsOrders(orders, id, status, now);
  }

  /** `getStatusLabel`. */
  function StatusLabel(s: OrderStatus): string {
    match s
    case Pending => "Pendiente"
    case Confirmed => "Confirmado"
    case Shipped => "Enviado"
    case Delivered => "Entregado"
    case Cancelled => "Cancelado"
  }

  /** `getStatusColor`. */
  function StatusColor(s: OrderStatus): string {
    match s
    case Pending => "bg-yellow-100 text-yellow-800"
    case Confirmed => "bg-blue-100 text-blue-800"
    case Shipped => "bg-purple-100 text-purple-800"
    case Delivered => "bg-green-100 text-green-800"
    case Cancelled => "bg-red-100 text-red-800"
  }

  /** Reading a status back from its label, the inverse of `StatusLabel`. */
  function StatusOfLabel(l: string): (r: Option<OrderStatus>)
    ensures r.Some? ==> StatusLabel(r.value) == l
  {
    if l == "Pendiente" then Some(Pending)
    else if l == "Confirmado" then Some(Confirmed)
    else if l == "Enviado" then Some(Shipped)
    else if l == "Entregado" then Some(Delivered)
    else if l == "Cancelado" then Some(Cancelled)
    else None
  }

  /** Every label reads back as its status, so distinct statuses never share a label. */
  lemma StatusLabelRoundTrip(s: OrderStatus)
    ensures StatusOfLabel(StatusLabel(s)) == Some(s)
  {
    match s
    case Pending =>
    case Confirmed => assert "Confirmado"[0] != "Pendiente"[0];
    case Shipped => assert "Enviado"[1] != "Pendiente"[1];
    case Delivered =>
      assert "Entregado"[1] != "Pendiente"[1];
      assert "Entregado"[2] != "Enviado"[2];
    case Cancelled =>
      assert "Cancelado"[0] != "Pendiente"[0];
      assert "Cancelado"[1] != "Confirmado"[1];
      assert "Cancelado"[0] != "Enviado"[0];
      assert "Cancelado"[0] != "Entregado"[0];
  }

  /** Distinct statuses get distinct badge colours. */
  lemma StatusColorInjective(s: OrderStatus, t: OrderStatus)
    requires s != t
    ensures StatusColor(s) != StatusColor(t)
  {
    assert StatusColor(s)[3] != StatusColor(t)[3] || StatusColor(s)[4] != StatusColor(t)[4];
  }
}

=== FILE: product_card.dfy ===
/** The catalog card: its default variant, the variant it shows, its quantity stepper, its add
    button and which variant selector it offers. */
module ProductCard {
  import opened Wrappers
  import Catalog
  import Cart

  /** The first variant in stock, or else the first variant, or nothing for a product without
      variants. */
  function DefaultVariant(p: Catalog.Product): (r: Option<Catalog.Variant>)
    ensures r.None? <==> p.variants == []
    ensures r.Some? ==> r.value in p.variants
    ensures (exists v :: v in p.variants && v.inStock) ==> r.Some? && r.value.inStock
    ensures (forall v :: v in p.variants ==> !v.inStock) && p.variants != [] ==> r == Some(p.variants[0])
  {
    match FirstInStock(p.variants)
    case Some(i) => Some(p.variants[i])
    case None => if |p.variants| > 0 then Some(p.variants[0]) else None
  }

  function FirstInStock(vs: seq<Catalog.Variant>): (r: Option<nat>)
    ensures r.Some? ==> r.value < |vs| && vs[r.value].inStock
    ensures r.Some? ==> forall j :: 0 <= j < r.value ==> !vs[j].inStock
    ensures r.None? <==> forall v :: v in vs ==> !v.inStock
  {
    if vs == [] then None
    else if vs[0].inStock then Some(0)
    else
      assert forall v :: v in vs <==> v == vs[0] || v in vs[1..];
      match FirstInStock(vs[1..])
      case Some(i) => Some(i + 1)
      case None => None
  }

  /** The default variant is the earliest one in stock when there is one. */
  lemma DefaultIsFirstInStock(p: Catalog.Product, i: nat)
    requires i < |p.variants| && p.variants[i].inStock
    requires forall j :: 0 <= j < i ==> !p.variants[j].inStock
    ensures DefaultVariant(p) == Some(p.variants[i])
  {
    var k := FirstInStock(p.variants).value;
    assert p.variants[i] in p.variants;
    assert !(k < i) && !(i < k);
  }

  function FindVariant(vs: seq<Catalog.Variant>, id: string): (r: Option<Catalog.Variant>)
    ensures r.Some? ==> r.value in vs && r.value.id == id
    ensures r.None? <==> forall v :: v in vs ==> v.id != id
    ensures r.Some? ==> exists k :: 0 <= k < |vs| && vs[k] == r.value && forall j :: 0 <= j < k ==> vs[j].id != id
  {
    if vs == [] then None
    else if vs[0].id == id then Some(vs[0])
    else
      assert forall v :: v in vs <==> v == vs[0] || v in vs[1..];
      FindVariant(vs[1..], id)
  }

  datatype Card = Card(product: Catalog.Product, variantId: string, qty: int)

  /** The card as first rendered: the default variant's id, or the empty id, and quantity one. */
  function Initial(p: Catalog.Product): (r: Card)
    ensures r.product == p && r.qty == 1
    ensures DefaultVariant(p).Some? ==> r.variantId == DefaultVariant(p).value.id
    ensures DefaultVariant(p).None? ==> r.variantId == ""
  {
    Card(p, if DefaultVariant(p).Some? then DefaultVariant(p).value.id else "", 1)
  }

  /** The variant the card shows: the chosen id's variant, or the default when no variant has it. */
  function Shown(c: Card): (r: Option<Catalog.Variant>)
    ensures FindVariant(c.product.variants, c.variantId).Some? ==> r == FindVariant(c.product.variants, c.variantId)
    ensures FindVariant(c.product.variants, c.variantId).None? ==> r == DefaultVariant(c.product)
    ensures r.None? <==> c.product.variants == []
  {
    match FindVariant(c.product.variants, c.variantId)
    case Some(v) => Some(v)
    case None => DefaultVariant(c.product)
  }

  predicate InStock(c: Card) {
    Shown(c).Some? && Shown(c).value.inStock
  }

  /** The selector buttons of out-of-stock variants are disabled, so a click changes the choice only
      for a variant in stock. */
  function Pick(c: Card, v: Catalog.Variant): (r: Card)
    requires v in c.product.variants
    ensures v.inStock ==> r == c.(variantId := v.id)
    ensures !v.inStock ==> r == c
  {
    if v.inStock then c.(variantId := v.id) else c
  }

  /** The stepper: both buttons clamp the quantity to one to ninety-nine. */
  function StepQty(c: Card, up: bool): (r: Card)
    ensures Cart.MinQty <= r.qty <= Cart.MaxQty
    ensures Cart.MinQty <= c.qty <= Cart.MaxQty ==>
      r.qty == if up then (if c.qty < Cart.MaxQty then c.qty + 1 else c.qty)
               else (if c.qty > Cart.MinQty then c.qty - 1 else c.qty)
    ensures r.product == c.product && r.variantId == c.variantId
  {
    c.(qty := Cart.ClampInt((if up then c.qty + 1 else c.qty - 1) as real, Cart.MinQty, Cart.MaxQty))
  }

  /** What a click on the add button hands to the cart: the shown variant's id and the quantity,
      only when the shown variant is in stock. */
  function AddClicked(c: Card): (r: Option<(string, int)>)
    ensures r.Some? <==> InStock(c)
    ensures r.Some? ==> r.value == (Shown(c).value.id, c.qty)
  {
    if InStock(c) then Some((Shown(c).value.id, c.qty)) else None
  }

  const AddLabel: string := "AGREGAR"
  const SoldOutLabel: string := "AGOTADO"

  function ButtonLabel(c: Card): (r: string)
    ensures r == AddLabel <==> InStock(c)
    ensures r == SoldOutLabel <==> !InStock(c)
  {
    if InStock(c) then AddLabel else SoldOutLabel
  }

  /** Within a product no two variants share an id. */
  predicate DistinctVariantIds(p: Catalog.Product) {
    forall i, j :: 0 <= i < j < |p.variants| ==> p.variants[i].id != p.variants[j].id
  }

  /** A fresh card offers to add exactly when some variant of the product is in stock. */
  lemma InitialAddsIffAnyInStock(p: Catalog.Product)
    requires DistinctVariantIds(p)
    ensures InStock(Initial(p)) <==> exists v :: v in p.variants && v.inStock
  {
    if DefaultVariant(p).Some? {
      var d := DefaultVariant(p).value;
      var f := FindVariant(p.variants, d.id).value;
      var i :| 0 <= i < |p.variants| && p.variants[i] == d;
      var j :| 0 <= j < |p.variants| && p.variants[j] == f;
      assert !(i < j) && !(j < i);
    }
  }

  // ---------------------------------------------------------------------------------------------
  // Selectors

  /** The distinct values of a list, in order of first appearance (`[...new Set(xs)]`). */
  function Distinct(xs: seq<string>): (r: seq<string>)
    ensures forall x :: x in r <==> x in xs
    ensures forall i, j :: 0 <= i < j < |r| ==> r[i] != r[j]
  {
    if xs == [] then []
    else
      var init := Distinct(xs[..|xs| - 1]);
      assert forall x :: x in xs <==> x in xs[..|xs| - 1] || x == xs[|xs| - 1];
      if xs[|xs| - 1] in init then init else init + [xs[|xs| - 1]]
  }

  /** More than one distinct value exactly when the list holds two different values. */
  lemma DistinctSeveralIff(xs: seq<string>)
    ensures |Distinct(xs)| > 1 <==> exists a, b :: a in xs && b in xs && a != b
  {
    var d := Distinct(xs);
    if |d| > 1 {
      assert d[0] in xs && d[1] in xs;
    }
    if exists a, b :: a in xs && b in xs && a != b {
      var a, b :| a in xs && b in xs && a != b;
      assert a in d && b in d;
    }
  }

  function SizesOf(vs: seq<Catalog.Variant>): (r: seq<string>)
    ensures |r| == |vs| && forall i :: 0 <= i < |vs| ==> r[i] == vs[i].size
  {
    seq(|vs|, i requires 0 <= i < |vs| => vs[i].size)
  }

  /** The non-empty flavors, in variant order; a missing or empty flavor is skipped. */
  function FlavorsOf(vs: seq<Catalog.Variant>): (r: seq<string>)
    ensures forall f :: f in r <==> exists v :: v in vs && v.flavor == Some(f) && f != ""
  {
    if vs == [] then []
    else
      var rest := FlavorsOf(vs[1..]);
      assert forall v :: v in vs <==> v == vs[0] || v in vs[1..];
      if vs[0].flavor.Some? && vs[0].flavor.value != "" then [vs[0].flavor.value] + rest else rest
  }

  function Sizes(p: Catalog.Product): seq<string> {
    Distinct(SizesOf(p.variants))
  }

  function Flavors(p: Catalog.Product): seq<string> {
    Distinct(FlavorsOf(p.variants))
  }

  /** The flavor selector shows for more than one flavor; the size selector only when it does not
      and there is more than one size. */
  predicate ShowsFlavorSelector(p: Catalog.Product) {
    |Flavors(p)| > 1
  }

  predicate ShowsSizeSelector(p: Catalog.Product) {
    |Flavors(p)| <= 1 && |Sizes(p)| > 1
  }

  /** The flavor selector shows exactly when two variants carry different non-empty flavors. */
  lemma FlavorSelectorIff(p: Catalog.Product)
    ensures ShowsFlavorSelector(p) <==>
      exists v, w :: v in p.variants && w in p.variants && v.flavor.Some? && w.flavor.Some?
        && v.flavor.value != "" && w.flavor.value != "" && v.flavor != w.flavor
  {
    var fs := FlavorsOf(p.variants);
    DistinctSeveralIff(fs);
    if |Flavors(p)| > 1 {
      var a, b :| a in fs && b in fs && a != b;
      var v :| v in p.variants && v.flavor == Some(a) && a != "";
      var w :| w in p.variants && w.flavor == Some(b) && b != "";
    }
    if exists v, w :: v in p.variants && w in p.variants && v.flavor.Some? && w.flavor.Some?
        && v.flavor.value != "" && w.flavor.value != "" && v.flavor != w.flavor {
      var v, w :| v in p.variants && w in p.variants && v.flavor.Some? && w.flavor.Some?
        && v.flavor.value != "" && w.flavor.value != "" && v.flavor != w.flavor;
      assert v.flavor.value in fs && w.flavor.value in fs;
    }
  }

  /** The size selector shows exactly when the flavor selector does not and two variants differ in
      size; the two selectors never show together. */
  lemma SizeSelectorIff(p: Catalog.Product)
    ensures ShowsSizeSelector(p) <==>
      !ShowsFlavorSelector(p)
      && (exists i, j :: 0 <= i < |p.variants| && 0 <= j < |p.variants| && p.variants[i].size != p.variants[j].size)
    ensures !(ShowsSizeSelector(p) && ShowsFlavorSelector(p))
  {
    var ss := SizesOf(p.variants);
    DistinctSeveralIff(ss);
    if exists a, b :: a in ss && b in ss && a != b {
      var a, b :| a in ss && b in ss && a != b;
      var i :| 0 <= i < |ss| && ss[i] == a;
      var j :| 0 <= j < |ss| && ss[j] == b;
      assert p.variants[i].size != p.variants[j].size;
    }
    if exists i, j :: 0 <= i < |p.variants| && 0 <= j < |p.variants| && p.variants[i].size != p.variants[j].size {
      var i, j :| 0 <= i < |p.variants| && 0 <= j < |p.variants| && p.variants[i].size != p.variants[j].size;
      assert ss[i] in ss && ss[j] in ss;
    }
  }
}

=== FILE: product_page.dfy ===
/** The product detail page: which product a route shows, the chosen variant and quantity, the
    add-to-cart and buy-now buttons, and the related products. */
module ProductPage {
  import opened Wrappers
  import Catalog
  import Cart

  /** The first product with the id; a missing route parameter matches nothing. */
  function FindProduct(cat: seq<Catalog.Product>, productId: Option<string>): (r: Option<nat>)
    ensures r.Some? ==> r.value < |cat| && productId == Some(cat[r.value].id)
    ensures r.Some? ==> forall j :: 0 <= j < r.value ==> Some(cat[j].id) != productId
    ensures r.None? ==> forall j :: 0 <= j < |cat| ==> Some(cat[j].id) != productId
  {
    if cat == [] then None
    else if productId == Some(cat[0].id) then Some(0)
    else match FindProduct(cat[1..], productId)
      case Some(i) => Some(i + 1)
      case None => None
  }

  datatype Page =
    | NotFound
    | Detail(product: Catalog.Product, selected: Option<Catalog.Variant>, quantity: int, addedToCart: bool)

  /** The page as first rendered: the product's first variant is chosen and the quantity is one. */
  function Open(cat: seq<Catalog.Product>, productId: Option<string>): (r: Page)
    ensures r.NotFound? <==> FindProduct(cat, productId).None?
    ensures r.Detail? ==>
      && r.product == cat[FindProduct(cat, productId).value]
      && r.quantity == 1 && !r.addedToCart
      && (r.selected.Some? <==> |r.product.variants| > 0)
      && (r.selected.Some? ==> r.selected.value == r.product.variants[0])
  {
    match FindProduct(cat, productId)
    case None => NotFound
    case Some(i) =>
      var p := cat[i];
      Detail(p, if |p.variants| > 0 then Some(p.variants[0]) else None, 1, false)
  }

  /** Any variant of the product can be chosen, in stock or not. */
  function Choose(page: Page, v: Catalog.Variant): (r: Page)
    requires page.Detail? && v in page.product.variants
    ensures r == page.(selected := Some(v))
  {
    page.(selected := Some(v))
  }

  /** The largest quantity the page's stepper reaches. */
  const PageMaxQty: int := 10

  function StepDown(q: int): (r: int)
    ensures r >= 1 && (q > 1 ==> r == q - 1) && (q <= 1 ==> r == 1)
  {
    if q - 1 > 1 then q - 1 else 1
  }

  function StepUp(q: int): (r: int)
    ensures r <= PageMaxQty && (q < PageMaxQty ==> r == q + 1) && (q >= PageMaxQty ==> r == PageMaxQty)
  {
    if q + 1 < PageMaxQty then q + 1 else PageMaxQty
  }

  /** The quantity after pressing the stepper buttons in order (`true` is plus). */
  function Press(q: int, presses: seq<bool>): int
    decreases |presses|
  {
    if presses == [] then q
    else Press(if presses[0] then StepUp(q) else StepDown(q), presses[1..])
  }

  /** From the initial quantity, no sequence of presses leaves the range one to ten. */
  lemma {:induction false} PressStaysInRange(q: int, presses: seq<bool>)
    requires 1 <= q <= PageMaxQty
    ensures 1 <= Press(q, presses) <= PageMaxQty
    decreases |presses|
  {
    if presses != [] {
      PressStaysInRange(if presses[0] then StepUp(q) else StepDown(q), presses[1..]);
    }
  }

  /** Adding acts only with a chosen variant that is in stock. */
  predicate Buyable(page: Page) {
    page.Detail? && page.selected.Some? && page.selected.value.inStock
  }

  /** `handleAddToCart`: the chosen variant goes to the cart in the chosen quantity and the
      confirmation shows; otherwise nothing happens. */
  function AddToCart(cat: seq<Catalog.Product>, page: Page, st: Cart.CartState): (r: (Page, Cart.CartState))
    ensures !Buyable(page) ==> r == (page, st)
    ensures Buyable(page) ==>
      r == (page.(addedToCart := true), Cart.Add(cat, st, page.selected.value.id, page.quantity as real))
  {
    if Buyable(page) then
      (page.(addedToCart := true), Cart.Add(cat, st, page.selected.value.id, page.quantity as real))
    else (page, st)
  }

  datatype Bought = Bought(cart: Cart.CartState, toCheckout: bool)

  /** `handleBuyNow`: the same addition, followed by a move to the checkout. */
  function BuyNow(cat: seq<Catalog.Product>, page: Page, st: Cart.CartState): (r: Bought)
    ensures r.toCheckout <==> Buyable(page)
    ensures r.cart == AddToCart(cat, page, st).1
  {
    if Buyable(page) then Bought(Cart.Add(cat, st, page.selected.value.id, page.quantity as real), true)
    else Bought(st, false)
  }

  /** For a product of a catalog with distinct variant ids, an in-stock choice reaches the cart with
      exactly the page's quantity when the cart does not hold that variant yet. */
  lemma AddUsesPageQuantity(cat: seq<Catalog.Product>, page: Page, st: Cart.CartState)
    requires Catalog.DistinctIds(Catalog.Entries(cat))
    requires Buyable(page) && page.product in cat && page.selected.value in page.product.variants
    requires 1 <= page.quantity <= PageMaxQty
    requires Cart.FindLine(st.lines, page.selected.value.id).None?
    ensures AddToCart(cat, page, st).1.lines == st.lines + [Cart.CartLine(page.selected.value.id, page.quantity)]
  {
    Catalog.LookupInOwner(cat, page.product, page.selected.value);
    Cart.ClampIntegerInRange(page.quantity);
  }

  /** The other products of the same category, in catalog order. */
  function SameCategory(cat: seq<Catalog.Product>, p: Catalog.Product): (r: seq<Catalog.Product>)
    ensures forall q :: q in r <==> q in cat && q.category == p.category && q.id != p.id
  {
    if cat == [] then []
    else
      var rest := SameCategory(cat[1..], p);
      assert forall q :: q in cat <==> q == cat[0] || q in cat[1..];
      if cat[0].category == p.category && cat[0].id != p.id then [cat[0]] + rest else rest
  }

  /** The candidates of a catalog split in two are those of the first part followed by those of
      the second, so catalog order is kept. */
  lemma {:induction false} SameCategoryAppend(a: seq<Catalog.Product>, b: seq<Catalog.Product>, p: Catalog.Product)
    ensures SameCategory(a + b, p) == SameCategory(a, p) + SameCategory(b, p)
  {
    if a == [] {
      assert a + b == b;
    } else {
      assert (a + b)[0] == a[0];
      assert (a + b)[1..] == a[1..] + b;
      SameCategoryAppend(a[1..], b, p);
    }
  }

  const RelatedCount: nat := 4

  /** The related products: the first four others of the same category. */
  function Related(cat: seq<Catalog.Product>, p: Catalog.Product): (r: seq<Catalog.Product>)
    ensures |r| <= RelatedCount
    ensures forall q :: q in r ==> q in cat && q.category == p.category && q.id != p.id
    ensures |SameCategory(cat, p)| <= RelatedCount ==>
      forall q :: q in r <==> q in cat && q.category == p.category && q.id != p.id
    ensures |r| == if |SameCategory(cat, p)| < RelatedCount then |SameCategory(cat, p)| else RelatedCount
    ensures r == SameCategory(cat, p)[..|r|]
  {
    var others := SameCategory(cat, p);
    if |others| <= RelatedCount then others
    else
      assert forall q :: q in others[..RelatedCount] ==> q in others;
      others[..RelatedCount]
  }

  /** The page never lists the product it shows among the related ones. */
  lemma RelatedExcludesSelf(cat: seq<Catalog.Product>, p: Catalog.Product)
    ensures p !in Related(cat, p)
  {
  }
}

=== FILE: protected_route.dfy ===
/** The route guard: what a protected page renders for the current authentication state. */
module ProtectedRoute {
  import opened Wrappers
  import Auth

  datatype Decision =
    | Spinner
    | RedirectToAuth(from: string)
    | RedirectToDashboard
    | Allow

  /** While loading the spinner shows; without a user the guard sends to `/auth`, remembering the
      current path; a non-admin on an admin page is sent to `/dashboard`; otherwise the page renders. */
  function Decide(isLoading: bool, user: Option<Auth.User>, requireAdmin: bool, pathname: string): (r: Decision)
    ensures isLoading ==> r == Spinner
    ensures !isLoading && user.None? ==> r == RedirectToAuth(pathname)
    ensures !isLoading && user.Some? && requireAdmin && user.value.role != Auth.Admin ==> r == RedirectToDashboard
    ensures r == Allow <==> !isLoading && user.Some? && (!requireAdmin || user.value.role == Auth.Admin)
  {
    if isLoading then Spinner
    else if user.None? then RedirectToAuth(pathname)
    else if requireAdmin && user.value.role != Auth.Admin then RedirectToDashboard
    else Allow
  }

  /** Once loading is over, an administrator is admitted everywhere, any user is admitted to pages
      that do not require an administrator, and requiring one never admits more. */
  lemma AdmissionRules(user: Auth.User, requireAdmin: bool, pathname: string)
    ensures user.role == Auth.Admin ==> Decide(false, Some(user), requireAdmin, pathname) == Allow
    ensures Decide(false, Some(user), false, pathname) == Allow
    ensures Decide(false, Some(user), true, pathname) == Allow ==> Decide(false, Some(user), false, pathname) == Allow
  {
  }
}

=== FILE: search_modal.dfy ===
/** The search dialog's result list: catalog products whose name, brand or category contains the
    query, compared in lower case. `lower` stands for `String.prototype.toLowerCase`. */
module SearchModal {
  import Text
  import Catalog

  /** A product matches when its lowercased name, brand or category name contains the lowercased
      query. */
  predicate Hits(p: Catalog.Product, query: string, lower: string -> string) {
    || Text.Contains(lower(p.name), lower(query))
    || Text.Contains(lower(p.brand), lower(query))
    || Text.Contains(lower(Catalog.CategoryName(p.category)), lower(query))
  }

  /** The matching products, in catalog order. */
  function Matching(cat: seq<Catalog.Product>, query: string, lower: string -> string): (r: seq<Catalog.Product>)
    ensures |r| <= |cat|
    ensures forall p :: p in r <==> p in cat && Hits(p, query, lower)
  {
    if cat == [] then []
    else
      var rest := Matching(cat[1..], query, lower);
      assert forall p :: p in cat <==> p == cat[0] || p in cat[1..];
      if Hits(cat[0], query, lower) then [cat[0]] + rest else rest
  }

  /** Matching distributes over concatenation, so results keep catalog order. */
  lemma {:induction false} MatchingAppend(a: seq<Catalog.Product>, b: seq<Catalog.Product>, query: string,
                                          lower: string -> string)
    ensures Matching(a + b, query, lower) == Matching(a, query, lower) + Matching(b, query, lower)
  {
    if a == [] {
      assert a + b == b;
    } else {
      assert (a + b)[0] == a[0];
      assert (a + b)[1..] == a[1..] + b;
      MatchingAppend(a[1..], b, query, lower);
    }
  }

  /** `results`: nothing for a query that is blank once trimmed; otherwise the catalog filtered with
      the query as typed, surrounding spaces included. */
  function Results(cat: seq<Catalog.Product>, query: string, lower: string -> string): (r: seq<Catalog.Product>)
    ensures Text.Trim(query) == [] ==> r == []
    ensures Text.Trim(query) != [] ==> forall p :: p in r <==> p in cat && Hits(p, query, lower)
    ensures Text.Trim(query) != [] ==> r == Matching(cat, query, lower)
  {
    if |Text.Trim(query)| > 0 then Matching(cat, query, lower) else []
  }

  /** A whitespace-only query shows no results. */
  lemma BlankQueryShowsNothing(cat: seq<Catalog.Product>, query: string, lower: string -> string)
    requires forall i :: 0 <= i < |query| ==> Text.IsSpace(query[i])
    ensures Results(cat, query, lower) == []
  {
    Text.TrimEmptyIffBlank(query);
  }
}

=== FILE: text.dfy ===
/** String helpers that mirror the JavaScript built-ins the storefront relies on:
    the white-space class shared by `\s` and `String.prototype.trim`,
    `String.prototype.includes`, and the decimal rendering of a clock reading. */
module Text {

  /** The characters ECMAScript counts as white space or line terminators
      (the `\s` class of a regular expression, and what `trim` strips). */
  predicate IsSpace(c: char) {
    || c == ' ' || c == '\t' || c == '\n' || c == '\r'
    || c == '\U{0B}' || c == '\U{0C}' || c == '\U{A0}' || c == '\U{1680}'
    || ('\U{2000}' <= c <= '\U{200A}')
    || c == '\U{2028}' || c == '\U{2029}' || c == '\U{202F}' || c == '\U{205F}'
    || c == '\U{3000}' || c == '\U{FEFF}'
  }

  /** Leading white space removed. */
  function TrimStart(s: string): (r: string)
    ensures |r| <= |s| && r == s[|s| - |r|..]
    ensures forall i :: 0 <= i < |s| - |r| ==> IsSpace(s[i])
    ensures |r| > 0 ==> !IsSpace(r[0])
  {
    if |s| > 0 && IsSpace(s[0]) then TrimStart(s[1..]) else s
  }

  /** Trailing white space removed. */
  function TrimEnd(s: string): (r: string)
    ensures |r| <= |s| && r == s[..|r|]
    ensures forall i :: |r| <= i < |s| ==> IsSpace(s[i])
    ensures |r| > 0 ==> !IsSpace(r[|r| - 1])
  {
    if |s| > 0 && IsSpace(s[|s| - 1]) then TrimEnd(s[..|s| - 1]) else s
  }

  /** `String.prototype.trim`: white space removed at both ends. */
  function Trim(s: string): (r: string)
    ensures |r| <= |s|
    ensures |r| > 0 ==> !IsSpace(r[0]) && !IsSpace(r[|r| - 1])
    ensures |s| - |TrimStart(s)| + |r| <= |s|
    ensures r == s[|s| - |TrimStart(s)|..|s| - |TrimStart(s)| + |r|]
    ensures forall i :: 0 <= i < |s| - |TrimStart(s)| ==> IsSpace(s[i])
    ensures forall i :: |s| - |TrimStart(s)| + |r| <= i < |s| ==> IsSpace(s[i])
  {
    TrimEndIsSpace(s, TrimStart(s));
    TrimEnd(TrimStart(s))
  }

  /** What `TrimEnd` cuts from a suffix of `s` is white space of `s` itself. */
  lemma TrimEndIsSpace(s: string, t: string)
    requires |t| <= |s| && t == s[|s| - |t|..]
    ensures forall i :: |s| - |t| + |TrimEnd(t)| <= i < |s| ==> IsSpace(s[i])
  {
    var r := TrimEnd(t);
    forall i | |s| - |t| + |r| <= i < |s| ensures IsSpace(s[i]) {
      assert s[i] == t[i - (|s| - |t|)];
    }
  }

  /** A string is blank when trimming leaves nothing, i.e. every character is white space. */
  lemma TrimEmptyIffBlank(s: string)
    ensures Trim(s) == [] <==> forall i :: 0 <= i < |s| ==> IsSpace(s[i])
  {
    var t := TrimStart(s);
    if Trim(s) == [] {
      assert |t| == 0;
    } else {
      assert Trim(s)[0] == s[|s| - |t|];
    }
  }

  /** Trailing white space appended to a word whose last character is not white space is exactly
      what `TrimEnd` removes. */
  lemma {:induction false} TrimEndDropsPadding(w: string, pad: string)
    requires |w| > 0 ==> !IsSpace(w[|w| - 1])
    requires forall i :: 0 <= i < |pad| ==> IsSpace(pad[i])
    ensures TrimEnd(w + pad) == w
  {
    if pad == [] {
      assert w + pad == w;
    } else {
      var init := pad[..|pad| - 1];
      assert (w + pad)[..|w + pad| - 1] == w + init;
      TrimEndDropsPadding(w, init);
    }
  }

  /** A word followed by white space trims to the word. */
  lemma TrimPaddedWord(w: string, pad: string)
    requires |w| > 0 && !IsSpace(w[0]) && !IsSpace(w[|w| - 1])
    requires forall i :: 0 <= i < |pad| ==> IsSpace(pad[i])
    ensures Trim(w + pad) == w
  {
    assert (w + pad)[0] == w[0];
    assert TrimStart(w + pad) == w + pad;
    TrimEndDropsPadding(w, pad);
  }

  /** Trimming a string whose ends are not white space leaves it as it is, so trimming twice is
      trimming once. */
  lemma TrimIdempotent(s: string)
    ensures |s| > 0 && !IsSpace(s[0]) && !IsSpace(s[|s| - 1]) ==> Trim(s) == s
    ensures Trim(Trim(s)) == Trim(s)
  {
    var t := Trim(s);
    if |s| > 0 && !IsSpace(s[0]) && !IsSpace(s[|s| - 1]) {
      assert TrimStart(s) == s;
      TrimEndDropsPadding(s, []);
      assert s + [] == s;
    }
    if |t| > 0 {
      assert TrimStart(t) == t;
      TrimEndDropsPadding(t, []);
      assert t + [] == t;
    }
  }

  /** `String.prototype.includes`: `t` occurs in `s` at some offset (the empty string occurs everywhere). */
  predicate Contains(s: string, t: string) {
    exists i :: 0 <= i <= |s| && OccursAt(s, t, i)
  }

  predicate OccursAt(s: string, t: string, i: int) {
    0 <= i <= |s| - |t| && s[i..i + |t|] == t
  }

  function DigitChar(d: nat): (c: char)
    requires d < 10
    ensures '0' <= c <= '9'
  {
    ['0', '1', '2', '3', '4', '5', '6', '7', '8', '9'][d]
  }

  /** The decimal rendering JavaScript gives a non-negative integer, as in the
      template literal `${Date.now()}`. */
  function Decimal(n: nat): (r: string)
    ensures |r| > 0
    ensures forall i :: 0 <= i < |r| ==> '0' <= r[i] <= '9'
  {
    if n < 10 then [DigitChar(n)] else Decimal(n / 10) + [DigitChar(n % 10)]
  }
}

=== FILE: wrappers.dfy ===
/** The optional-value datatype the rest of the model uses for JavaScript's
    `undefined`/`null` results (a failed lookup, an absent field). */
module Wrappers {

  datatype Option<+T> = None | Some(value: T) {

    /** The wrapped value, or `default` when there is none (JavaScript's `??`). */
    function GetOr(default: T): T {
      match this
      case Some(v) => v
      case None => default
    }
  }
}
